=== FILE: README.md ===
# Open Work todo components, modelled in Dafny

Open Work is a Next.js front end for a todo list kept in an on-chain
contract on Base (chain id 8453). This project models the logic of its two
components:

- `TodoList`, the connected user's list.
  - An input line is split into `#hashtags` and the text left over.
  - A todo is appended optimistically and dropped again if the transaction
    fails. Completion is likewise flipped optimistically and reverted on
    failure.
  - The list is grouped by status and then by tag, with `"Untagged"` as the
    sentinel tag. Tags are sorted with the sentinel first, and each tag's
    todos are sorted by date.
  - The component reads the list from the contract one page at a time.
  - It reacts to the wallet's account and chain notifications.
- `UserTasks`, the read-only page at `/[username]`.
  - It completes a name with `.eth` and resolves it through ENS.
  - It reads the first ten todos of the resolved address.

Each event of a component is a pure function from the state before to the
state after. Anything the browser, the wallet, the contract or the clock
supplies is an input of that function. Examples are the wallet's replies,
the outcome of a read, the temporary id and the current time.

Modules, one per file:

| module | file | contents |
|---|---|---|
| `Wrappers` | wrappers.dfy | `Option` |
| `Text` | text.dfy | JavaScript `trim`, `\w`, `endsWith` |
| `ParseInt` | parse_int.dfy | `parseInt(s, 16)`, with `None` for `NaN` |
| `Hashtags` | hashtags.dfy | the global `/#\w+/g` scan behind `match` and `replace` |
| `Sorting` | sorting.dfy | `Array.prototype.sort` as a stable insertion sort under an integer comparator |
| `Todos` | todos.dfy | the todo record; the fetch conversion, the filter and the map of the list; `sortTodosByDate` |
| `Grouping` | grouping.dfy | `groupTodosByStatusAndTag`, with JavaScript objects as insertion-ordered association lists |
| `TodoView` | view.dfy | `sortTags` and the order in which the page shows sections |
| `TodoList` | todo_list.dfy | the component state and its events |
| `UserTasks` | user_tasks.dfy | ENS name completion, resolution and the read of the todo page |

Two sort details:

- A comparator `cmp` lets `a` stay before `b` when `cmp(a, b) <= 0`.
- `Sorting.Consistent` states what makes a comparator a total preorder. Both
  the date comparator and the tag comparator satisfy it, given a consistent
  `localeCompare`.

## Model

| member | source | states |
|---|---|---|
| Text.Trim | components/TodoList.js:191 | the trimmed string has no whitespace at either end and is a contiguous middle section of the input with only whitespace cut off; it is empty exactly when the input is all whitespace |
| Text.TrimIdempotent | components/TodoList.js:194 | trimming an already trimmed string changes nothing |
| Hashtags.Tokenize | components/TodoList.js:193-194 | the scan splits the input into tags and single plain characters that concatenate back to the input, and each tag is a maximal `#` word run that a left-to-right regex scan would match |
| Hashtags.TokenizeUnique | components/TodoList.js:193-194 | any split with the match properties is the one the scan produces, so tags and content are determined by the input alone |
| Hashtags.ExtractTags | components/TodoList.js:193 | every extracted tag is `#` followed by one or more word characters |
| Hashtags.ParseContent | components/TodoList.js:194 | the content has no whitespace at either end |
| Hashtags.StripTags | components/TodoList.js:194 | deleting the matches removes exactly the tags' characters, so the tag-free text's length and the tags' lengths add up to the input's length, and leaves no `#` directly followed by a word character |
| Hashtags.NoTagsIff | components/TodoList.js:193 | `match` finds no tag (the `\|\| []` fallback) exactly when no `#` is directly followed by a word character |
| Hashtags.ContentHasNoTags | components/TodoList.js:193-194 | neither the tag-free text nor the trimmed content contains a further tag |
| Sorting.Insert | components/TodoList.js:111 | insertion keeps the elements, adding exactly the one inserted |
| Sorting.Sort | components/TodoList.js:111 | the sort returns a permutation of its input |
| Sorting.SortSorted | components/TodoList.js:111 | under a consistent comparator every earlier element compares `<= 0` to every later one |
| Todos.FromContractRoundTrip | components/TodoList.js:70-78 | converting a contract record and back gives it unchanged |
| Todos.FromContractPage | components/TodoList.js:70-78 | the mapped list has one record per contract entry, in order, each converting back to its entry |
| Todos.WithoutId | components/TodoList.js:218-220 | the filter never grows the list and removes every todo with the id |
| Todos.WithoutIdCounts | components/TodoList.js:218-220 | the filter keeps every todo without the id as often as it occurred and removes all with it |
| Todos.WithoutIdAppend | components/TodoList.js:218-220 | filtering a concatenation filters each part |
| Todos.WithoutAbsentId | components/TodoList.js:218-220 | filtering an id nobody carries changes nothing |
| Todos.SetCompleted | components/TodoList.js:229-233 | the map sets the flag of every todo with the id and changes nothing else, keeping length and order |
| Todos.RevertRestoresIff | components/TodoList.js:229-233 | completing and then reverting gives the list back exactly when every todo with that id was pending |
| Todos.SetCompletedIdempotent | components/TodoList.js:245-249 | a second completion or revert with the same flag changes nothing |
| Todos.ByCreatedAtConsistent | components/TodoList.js:111 | the date comparator is a total preorder |
| Todos.SortTodosByDate | components/TodoList.js:110-112 | the sorted list is a permutation of the input, oldest first |
| Grouping.FilingTags | components/TodoList.js:260 | a todo is filed under exactly its tags, one entry per tag, or under the one sentinel tag when it has none |
| Grouping.FilingTagsOrdinary | components/TodoList.js:260-263 | tags that start with `#`, as every parsed tag does, and the sentinel are ordinary object keys: none is a name a fresh object already holds and none is a digit string that `Object.keys` would move to the front |
| Grouping.GroupTodos | components/TodoList.js:255-268 | the buckets together hold one entry for each tag a todo is filed under, so no filing is lost or doubled |
| Grouping.GroupTodosLookup | components/TodoList.js:255-268 | each bucket holds exactly the todos of that status filed under that tag, in list order and once per occurrence of the tag |
| Grouping.GroupTodosWellFormed | components/TodoList.js:256-264 | status keys are distinct, tag keys are distinct within a status, and no bucket is empty |
| Grouping.GroupTodosSpec | components/TodoList.js:255-268 | a status key exists exactly when some todo has that status; a tag key exists exactly when some todo of that status is filed under it; every bucket equals the reference bucket |
| Grouping.GroupHasStatus | components/TodoList.js:257-258 | a status has a non-empty group exactly when some todo has that status |
| TodoView.SortTags | components/TodoList.js:273-281 | the sorted tags are a permutation of the keys, and the sentinel, if present, comes first |
| TodoView.TagOrderConsistent | components/TodoList.js:274-280 | the tag comparator is a total preorder whenever `localeCompare` is |
| TodoView.SortTagsOrdered | components/TodoList.js:277-280 | tags other than the sentinel come out in `localeCompare` order |
| TodoView.SectionFor | components/TodoList.js:341-352 | a status section has one entry per tag key of that status, its tags are exactly the keys in the order `sortTags` gives them (so the sentinel first when present), and each entry holds a permutation of its bucket sorted oldest first |
| TodoView.StatusPart | components/TodoList.js:335-340 | a status gets one section exactly when it has a tag key, and that section is non-empty |
| TodoView.Render | components/TodoList.js:335-413 | at most two sections, pending before completed, none of them empty |
| TodoView.SectionSpec | components/TodoList.js:341-352 | a status section lists each tag some todo of that status is filed under, once, with the sentinel first; each tag shows exactly its todos, oldest first |
| TodoView.RenderSpec | components/TodoList.js:335-413 | a section is shown for a status exactly when some todo has it, with pending before completed |
| TodoList.Initialize | components/TodoList.js:118-176 | on chain 8453 with accounts granted the contract is bound and the first account becomes the wallet; the wallet listeners are registered; in every other case loading ends with an error and no listener is registered; nothing but the contract, the wallet, the error, the loading flag and the listener flag changes |
| TodoList.InitializeBinds | components/TodoList.js:118-176 | from an unbound state, initialisation binds the contract exactly when a provider is on chain 8453 and grants accounts; every other outcome ends loading with an error |
| TodoList.MountedFirstFetch | components/TodoList.js:182-186 | from mount, a granted account triggers a first read of entries 0 to 10 of that account |
| TodoList.FetchRequest | components/TodoList.js:59-69 | a read starts exactly when a contract is bound and a wallet is connected, and it asks for entries 0 to `displayedTodos` of that wallet |
| TodoList.SettleFetch | components/TodoList.js:61-90 | a read that settles writes its outcome whatever the state is by then: a listed page replaces the list record for record, sets the count and clears the error; a failure keeps the list and reports, keeping the count when the count call failed and storing it when only the page call failed; loading ends either way; nothing else changes |
| TodoList.ApplyFetch | components/TodoList.js:58-96 | a read that does not start, for want of a contract or a wallet, keeps the list, the count and the error; loading ends either way |
| TodoList.StaleFetchClearsNetworkError | components/TodoList.js:58-90 | a read started on Base that settles after a switch to another chain still replaces the list record for record, stores the count and clears the network error, so the todo page shows with no contract bound |
| TodoList.RefetchAfterAddUsesSubmittedPageSize | components/TodoList.js:114-116 | the refetch after a confirmed add asks for the page size of the render in which the add was submitted; when Show More was pressed and its read settled meanwhile, the refetch's page replaces the list and a page no longer than the old size leaves fewer todos than the page size shown |
| TodoList.FetchReplacesTodos | components/TodoList.js:58-81 | a successful fetch replaces the list with the page, record for record, stores the count, clears the error and ends loading |
| TodoList.FetchSupersedesOptimistic | components/TodoList.js:80 | an optimistic add or completion before a fetch settles does not survive it |
| TodoList.FetchFailureKeepsTodos | components/TodoList.js:62-86 | a failed read keeps the list and reports; a count read before the failure is kept |
| TodoList.AddAccepted | components/TodoList.js:191 | an add goes ahead exactly when the raw input is not all whitespace and a contract is bound |
| TodoList.Provisional | components/TodoList.js:197-203 | the optimistic todo carries the temporary id and the current time, is pending, has only well-formed tags and content with no tag in it, and is no longer than the input |
| TodoList.CreateArgs | components/TodoList.js:208 | `createTodo` is called exactly when the add is accepted, with content holding no tag, well-formed tags, and no more characters than the input |
| TodoList.AddTodo | components/TodoList.js:188-205 | adding keeps the existing todos in place, appends at most one, and changes nothing but the list and the input |
| TodoList.AddTodoFailed | components/TodoList.js:212-220 | a failed add reports, removes every todo carrying the temporary id, keeps every other todo as often as it occurred, and changes nothing else |
| TodoList.AddTodoGuard | components/TodoList.js:191 | adding changes nothing and sends nothing exactly when the raw input trims to empty or no contract is bound |
| TodoList.AddTodoAppends | components/TodoList.js:193-208 | an accepted add appends one pending todo with the temporary id, the input's tags and its tag-free content; it clears the input, changes nothing else, and sends the same content and tags to `createTodo` |
| TodoList.AddThenFailRestores | components/TodoList.js:197-220 | a failure right after an add restores the old list exactly when the temporary id was not already in use |
| TodoList.TagOnlyInputAdds | components/TodoList.js:191-208 | any input that the scan splits into tags and whitespace only, with at least one tag, passes the guard, adds a todo with empty content carrying exactly those tags, and sends the same to `createTodo` |
| TodoList.CompleteTodo | components/TodoList.js:229-233 | the optimistic flip marks every todo with the id completed, leaves every other todo and the rest of the state as they were |
| TodoList.CompleteTodoFailed | components/TodoList.js:239-249 | the failure branch reports and marks every todo with the id pending, leaving every other todo and the rest of the state as they were |
| TodoList.CompleteTodoSettled | components/TodoList.js:226-253 | after a completion settles, every todo with the id is completed exactly when the transaction was confirmed with a contract bound and pending otherwise; all other fields and all other todos are kept, and a failure reports |
| TodoList.CompleteSettledSpec | components/TodoList.js:226-253 | a failed completion restores the list exactly when every todo with that id was pending; a confirmed one leaves them completed and the rest as they were; without a contract the completion always fails |
| TodoList.ShowMoreOffered | components/TodoList.js:415 | the button is offered exactly when the screen is the todo page with the Show More button on it |
| TodoList.ShowMore | components/TodoList.js:415-417 | pressing the button adds ten to the page size when the button is shown and changes nothing else |
| TodoList.ShowMoreSpec | components/TodoList.js:415-422 | the button is offered exactly when the todo page is on screen with fewer todos displayed than the count; it is offered exactly when pressing it changes something, and pressing it adds ten to the page size and changes nothing else |
| TodoList.ShowMoreEventuallyStops | components/TodoList.js:415-417 | after ceil((total - displayed) / 10) presses the button is no longer offered |
| TodoList.AccountsChanged | components/TodoList.js:149-154 | once the listeners are registered, an account change makes the first account (if any) the wallet, resets the page size to ten and shows Loading, and nothing else changes; before a successful initialisation it changes nothing |
| TodoList.AccountsChangedFetch | components/TodoList.js:150-154 | after an account change the next read is entries 0 to 10 of the new first account, if there is one and a contract is bound |
| TodoList.AccountsChangedLatestWins | components/TodoList.js:150-154 | a second account notification overrides the first entirely: the state is as if only the second had arrived |
| TodoList.AccountsRevokedShowsLoading | components/TodoList.js:150-154 | right after the wallet reports no account, no read starts and the screen is Loading, with no Show More button to press |
| TodoList.ChainChanged | components/TodoList.js:156-165 | once the listeners are registered, a chain id that does not parse to 8453 drops the contract and reports the network error and nothing else; one that does keeps a bound contract bound and binds it when the wallet is on Base with access granted, in which case the error is cleared and Loading shows, changing nothing but the contract, the wallet, the error and the loading flag; before a successful initialisation it changes nothing |
| TodoList.ChainChangedAway | components/TodoList.js:157-160 | a chain id other than 8453 drops the contract, so no read or add can run, and reports the network error |
| TodoList.NotificationsNeedListeners | components/TodoList.js:118-166 | before a successful initialisation neither wallet notification changes anything, and an initialisation registers the listeners exactly when it reaches Base with access granted |
| TodoList.WrongChainAtMountStaysOnError | components/TodoList.js:127-132 | a page opened on another chain shows the network error and keeps showing it whatever chain the wallet reports later, with no read started |
| TodoList.ChainSwitchBackRebinds | components/TodoList.js:156-165 | after a successful initialisation, switching away from Base and back to `0x2105` binds the contract again, clears the error and shows Loading |
| TodoList.ChainIdSpelling | components/TodoList.js:158 | with the listeners registered, the hexadecimal report `0x2105` keeps the component on Base, and a decimal `8453` is read as 0x8453 and treated as another chain |
| TodoList.ScreenOf | components/TodoList.js:284-306 | the screen is Loading exactly while the first load runs, the error page exactly when an error is set after it, with that error's text, and the todo page exactly when neither holds and a wallet is connected |
| ParseInt.ParseIntHex | components/TodoList.js:158 | a blank string reads as `NaN`, and a string of hexadecimal digits reads as the number it denotes |
| ParseInt.ReadHexDigits | components/TodoList.js:158 | the digit reader reads a whole numeral as the number it denotes |
| ParseInt.ParseIntHexRoundTrip | components/TodoList.js:158 | `parseInt` in base 16 reads back the value of a `0x`-prefixed hexadecimal spelling followed by any non-digit text |
| ParseInt.ParseIntHexBare | components/TodoList.js:158 | `parseInt` in base 16 reads back a hexadecimal spelling without prefix |
| UserTasks.NormalizeEnsName | components/UserTasks.js:23 | the name sent to the resolver ends in `.eth` |
| UserTasks.NormalizeExtends | components/UserTasks.js:23 | the input is a prefix of the result, at most `.eth` is appended, and the name is unchanged exactly when it already ends in `.eth` |
| UserTasks.NormalizeIdempotent | components/UserTasks.js:23 | normalising twice is normalising once |
| UserTasks.RouteNameUnchanged | components/UserTasks.js:23 | the name the `/[username]` route passes, already suffixed, is never suffixed again, so a username ending in `.eth` reaches the resolver with the suffix twice |
| UserTasks.ResolveEnsName | components/UserTasks.js:20-48 | a read is requested exactly when the resolver answers the normalised name with an address, and it is a read of entries 0 to 10 of that address; otherwise the address is kept and the error is the not-found text for a `null` answer and the resolve-failed text for a throw; the tasks are untouched |
| UserTasks.FetchTasks | components/UserTasks.js:50-73 | a successful read shows one task per entry, each converting back to its entry, the same records the todo list makes of that page, and keeps the error; a failed one keeps the tasks and reports; the address is kept either way |
| UserTasks.ResolveSpec | components/UserTasks.js:20-48 | only the resolver's answer for the normalised name matters; with no address the page reports "ENS name not found" and reads nothing; with an address it reads entries 0 to 10 of exactly that address |
| UserTasks.FormatTasks | components/UserTasks.js:60-67 | one record per contract entry, in order, each converting back to its entry |
| UserTasks.FormatTasksAgrees | components/UserTasks.js:61-67 | both components turn a contract page into the same records, apart from the date formatting |
| UserTasks.ScreenOf | components/UserTasks.js:75-97 | the error text shows exactly when an error is set, Loading exactly when neither an error nor an address is set, and otherwise the tasks as stored |
| UserTasks.MountedOutcomes | components/UserTasks.js:36-81 | an unknown name ends on the error text; a known name with a successful read shows exactly that page |

## Left out

- Wallet and provider plumbing is not modelled. This covers Web3Modal and wagmi setup, `ethers` providers, signers and contract objects, the environment-variable checks, and `console` logging. Their outcomes are inputs (`Wallet`, `AccountsReply`, `FetchOutcome`, the reply of a read).
- The ENS lookup over the network is the `resolver` parameter.
- The 500 ms `lodash` debounce of the refetch after a confirmed add is not modelled; of several refetches within 500 ms only the last would run. The refetch is the `fetchTodos` of the render in which the add was submitted (components/TodoList.js:114-116, 223-224). It tests and uses that render's contract, wallet and `displayedTodos`, and writes on the state when it settles. So it is `FetchRequest` on the state at submission followed by `SettleFetch` on the later state, not `ApplyFetch` on the current state, as `TodoList.RefetchAfterAddUsesSubmittedPageSize` shows.
- React hooks, effect scheduling and JSX markup are left out. The order of events is whatever order the lemmas compose.
- `Date.now()` and `new Date()` are the `tempId` and `now` parameters. `formatDate`, `toLocaleString` and the date kept as a string by UserTasks are left out.
- Locale collation is the `localeCompare` parameter, standing for `localeCompare` with `numeric: true` and `sensitivity: "base"`.
- `BigNumber.toNumber` is modelled as an exact conversion. Values beyond 2^53 are not modelled.
- `isLoading` is left out because the render never reads it.
- The `accountsChanged` and `chainChanged` listeners are registered by every initialisation that reaches the contract (components/TodoList.js:149-166), so a switch back to Base adds a second pair. Listener accumulation is not modelled: `listening` is a flag, and a notification applies once.
- next.config.mjs is not part of this model.
- The `createdAt ? … : null` branch of the fetch is not modelled. The contract's `createdAt` is always a BigNumber object, which is truthy, so that branch never runs.
- The `length > 0` test on a tag's list in the render is not modelled. `Grouping.GroupTodosWellFormed` proves that no bucket is empty.
- Sorting.Sort: `Array.prototype.sort` is modelled as a stable insertion sort. ECMAScript 2019 and later require a stable sort, so for a consistent comparator every engine yields this order. Only for an inconsistent comparator is the engine's order implementation-defined and may differ from the model's.
- TodoView.SortTagsOrdered: the order is stated only for a consistent `localeCompare`. For an inconsistent comparator the result is only a permutation.
- UserTasks.ResolveSpec: an address is modelled as present or absent. A resolver returning an empty string, which is falsy, is not distinguished.
- Grouping.GroupTodos: JavaScript objects are modelled as insertion-ordered association lists, which holds for ordinary keys only (`Grouping.OrdinaryKey`). A tag named like an inherited property, such as `constructor`, would make `push` throw, and digit-only keys would be listed first. Neither case is modelled. Every tag the input parser makes starts with `#` and is ordinary (`Grouping.FilingTagsOrdinary`). Tags read back from the contract are assumed to be ordinary as well.
- TodoList.AddTodo: the form is rendered only on the todo page, and the Complete buttons likewise, but `AddTodo` and `CompleteTodoSettled` are defined on every state. This over-approximates what a user can trigger; `ShowMore`, by contrast, is gated by `ShowMoreOffered`.
- TodoList.ApplyFetch: the source decides whether a read starts when it is called, then writes its outcome when it settles, whatever the state is by then. `ApplyFetch` is a start followed at once by its settle. A read that overlaps other events is the composition of `FetchRequest` at the start with `SettleFetch` on the later state, as `StaleFetchClearsNetworkError` shows.
- Behaviour of the code worth knowing:
  - Show More compares `displayedTodos`, not the number of loaded todos, with the count. The button exists only on the todo page.
  - A confirmed completion does not refetch.
  - The add guard tests the raw input, so input consisting only of a tag adds a todo with empty content.
  - The listeners are registered only after a successful initialisation. A page opened on another chain therefore never hears the switch to Base and stays on the network error until it is reloaded.

=== FILE: grouping.dfy ===
/**
 * The grouped view of the todo list: `groupTodosByStatusAndTag` files every
 * todo under its status and under each of its tags (or the sentinel
 * `"Untagged"`), `sortTags` orders a status's tags, and the render walks
 * pending before completed, each tag's todos by date.
 *
 * The JavaScript objects `acc` and `acc[status]` are modelled as association
 * lists in key-insertion order. That is the order `Object.keys` reports for
 * ordinary keys (`OrdinaryKey`): not an array index, and not a name every
 * object inherits from `Object.prototype`.
 */
module Grouping {
  import opened Sorting
  import opened Todos

  /** The bucket of a todo without tags. */
  const Untagged: string := "Untagged"

  datatype Status = Pending | Completed

  function StatusOf(t: Todo): Status {
    if t.isCompleted then Completed else Pending
  }

  /** The tags a todo is filed under: its own, or the sentinel when it has none. */
  function FilingTags(t: Todo): (tags: seq<string>)
    ensures |tags| == if |t.tags| == 0 then 1 else |t.tags|
    ensures forall tag :: tag in tags <==> tag in t.tags || (|t.tags| == 0 && tag == Untagged)
  {
    if |t.tags| == 0 then [Untagged] else t.tags
  }

  datatype TagBucket = TagBucket(tag: string, todos: seq<Todo>)
  datatype StatusGroup = StatusGroup(status: Status, buckets: seq<TagBucket>)

  /** `if (!acc[status][tag]) acc[status][tag] = []; acc[status][tag].push(todo)`. */
  function FileUnder(bs: seq<TagBucket>, tag: string, t: Todo): (r: seq<TagBucket>)
    ensures |r| == |bs| || |r| == |bs| + 1
  {
    if |bs| == 0 then [TagBucket(tag, [t])]
    else if bs[0].tag == tag then [bs[0].(todos := bs[0].todos + [t])] + bs[1..]
    else [bs[0]] + FileUnder(bs[1..], tag, t)
  }

  /** `tags.forEach(...)`: files the todo under each tag in turn. */
  function FileUnderAll(bs: seq<TagBucket>, tags: seq<string>, t: Todo): seq<TagBucket>
    decreases |tags|
  {
    if |tags| == 0 then bs else FileUnderAll(FileUnder(bs, tags[0], t), tags[1..], t)
  }

  /** One step of the `reduce`: the todo goes into its status's group, created at the end when absent. */
  function FileTodo(g: seq<StatusGroup>, t: Todo): seq<StatusGroup> {
    if |g| == 0 then [StatusGroup(StatusOf(t), FileUnderAll([], FilingTags(t), t))]
    else if g[0].status == StatusOf(t) then
      [g[0].(buckets := FileUnderAll(g[0].buckets, FilingTags(t), t))] + g[1..]
    else [g[0]] + FileTodo(g[1..], t)
  }

  /**
   * `groupTodosByStatusAndTag`: `todosList.reduce(fileTodo, {})`, first todo
   * first. Every todo is pushed once per tag it is filed under, so the
   * buckets hold max(1, |tags|) entries per todo and nothing else.
   */
  function GroupTodos(todos: seq<Todo>): (g: seq<StatusGroup>)
    ensures GroupsSize(g) == FilingCount(todos)
  {
    if |todos| == 0 then []
    else
      var init, last := todos[..|todos| - 1], todos[|todos| - 1];
      FileTodoSize(GroupTodos(init), last);
      FilingCountSnoc(init, last);
      assert todos == init + [last];
      FileTodo(GroupTodos(init), last)
  }

  /** Names every object inherits from `Object.prototype`: `acc[status][name]` is already set for them. */
  const PrototypeKeys: set<string> := {
    "constructor", "__proto__", "hasOwnProperty", "isPrototypeOf", "propertyIsEnumerable",
    "toLocaleString", "toString", "valueOf",
    "__defineGetter__", "__defineSetter__", "__lookupGetter__", "__lookupSetter__"}

  /** A string of decimal digits, which `Object.keys` may list before every other key. */
  predicate DigitsKey(k: string) {
    |k| > 0 && forall i :: 0 <= i < |k| ==> '0' <= k[i] <= '9'
  }

  /** A key a fresh object neither holds already nor reorders: the association-list reading applies. */
  predicate OrdinaryKey(k: string) {
    k !in PrototypeKeys && !DigitsKey(k)
  }

  /**
   * Tags that start with `#`, as every tag the input parser produces does,
   * and the sentinel are all ordinary keys.
   */
  lemma FilingTagsOrdinary(t: Todo)
    requires forall i :: 0 <= i < |t.tags| ==> |t.tags[i]| > 0 && t.tags[i][0] == '#'
    ensures forall tag :: tag in FilingTags(t) ==> OrdinaryKey(tag)
  {
    forall tag | tag in FilingTags(t) ensures OrdinaryKey(tag) {
      if |t.tags| == 0 {
        assert tag == Untagged;
        assert !DigitsKey(tag) by { assert tag[0] == 'U'; }
      } else {
        var i :| 0 <= i < |t.tags| && t.tags[i] == tag;
        assert tag[0] == '#';
        assert forall k :: k in PrototypeKeys ==> k[0] != '#';
      }
    }
  }

  /** `acc[status][tag] || []`. */
  function BucketOf(bs: seq<TagBucket>, tag: string): seq<Todo> {
    if |bs| == 0 then []
    else if bs[0].tag == tag then bs[0].todos
    else BucketOf(bs[1..], tag)
  }

  /** `acc[status] || {}`. */
  function BucketsOf(g: seq<StatusGroup>, status: Status): seq<TagBucket> {
    if |g| == 0 then []
    else if g[0].status == status then g[0].buckets
    else BucketsOf(g[1..], status)
  }

  /** `Object.keys(acc[status])`. */
  function TagsIn(bs: seq<TagBucket>): (keys: seq<string>)
    ensures |keys| == |bs| && forall i :: 0 <= i < |bs| ==> keys[i] == bs[i].tag
  {
    seq(|bs|, i requires 0 <= i < |bs| => bs[i].tag)
  }

  /** `Object.keys(acc)`. */
  function StatusesIn(g: seq<StatusGroup>): (keys: seq<Status>)
    ensures |keys| == |g| && forall i :: 0 <= i < |g| ==> keys[i] == g[i].status
  {
    seq(|g|, i requires 0 <= i < |g| => g[i].status)
  }

  function Count(tag: string, tags: seq<string>): nat {
    if |tags| == 0 then 0 else (if tags[0] == tag then 1 else 0) + Count(tag, tags[1..])
  }

  function Repeat(t: Todo, n: nat): (r: seq<Todo>)
    ensures |r| == n && forall i :: 0 <= i < n ==> r[i] == t
  {
    seq(n, _ => t)
  }

  /** What one todo adds to the bucket (status, tag): itself, once per occurrence of the tag. */
  function Contribution(t: Todo, status: Status, tag: string): seq<Todo> {
    if StatusOf(t) == status then Repeat(t, Count(tag, FilingTags(t))) else []
  }

  /**
   * Reference definition of a bucket: the todos of that status filed under
   * that tag, in input order, a todo repeated once per occurrence of the tag.
   */
  function Expected(todos: seq<Todo>, status: Status, tag: string): seq<Todo> {
    if |todos| == 0 then []
    else Contribution(todos[0], status, tag) + Expected(todos[1..], status, tag)
  }

  /** Number of bucket entries a list of todos makes: each todo counts max(1, |tags|) times. */
  function FilingCount(todos: seq<Todo>): nat {
    if |todos| == 0 then 0 else |FilingTags(todos[0])| + FilingCount(todos[1..])
  }

  function BucketsSize(bs: seq<TagBucket>): nat {
    if |bs| == 0 then 0 else |bs[0].todos| + BucketsSize(bs[1..])
  }

  function GroupsSize(g: seq<StatusGroup>): nat {
    if |g| == 0 then 0 else BucketsSize(g[0].buckets) + GroupsSize(g[1..])
  }

  predicate Distinct<K(==)>(keys: seq<K>) {
    forall i, j :: 0 <= i < j < |keys| ==> keys[i] != keys[j]
  }

  /** Buckets as a JavaScript object holds them: distinct keys, no empty array. */
  predicate BucketsWellFormed(bs: seq<TagBucket>) {
    Distinct(TagsIn(bs)) && forall i :: 0 <= i < |bs| ==> |bs[i].todos| > 0
  }

  predicate GroupsWellFormed(g: seq<StatusGroup>) {
    Distinct(StatusesIn(g)) && AllGroupsWellFormed(g)
  }

  predicate AllGroupsWellFormed(g: seq<StatusGroup>) {
    forall i :: 0 <= i < |g| ==> |g[i].buckets| > 0 && BucketsWellFormed(g[i].buckets)
  }

  // ---------------------------------------------------------------------------
  // Lookups after one filing step

  lemma {:induction false} FileUnderLookup(bs: seq<TagBucket>, key: string, t: Todo, tag: string)
    ensures BucketOf(FileUnder(bs, key, t), tag) == BucketOf(bs, tag) + (if key == tag then [t] else [])
  {
    if |bs| > 0 && bs[0].tag != key {
      var r := FileUnder(bs, key, t);
      assert r[0] == bs[0] && r[1..] == FileUnder(bs[1..], key, t);
      FileUnderLookup(bs[1..], key, t, tag);
    }
  }


  lemma RepeatSplit(t: Todo, a: nat, b: nat)
    ensures Repeat(t, a) + Repeat(t, b) == Repeat(t, a + b)
  {
  }

  lemma {:induction false} FileUnderAllLookup(bs: seq<TagBucket>, tags: seq<string>, t: Todo, tag: string)
    ensures BucketOf(FileUnderAll(bs, tags, t), tag) == BucketOf(bs, tag) + Repeat(t, Count(tag, tags))
    decreases |tags|
  {
    if |tags| > 0 {
      var once := if tags[0] == tag then 1 else 0;
      FileUnderLookup(bs, tags[0], t, tag);
      FileUnderAllLookup(FileUnder(bs, tags[0], t), tags[1..], t, tag);
      RepeatSplit(t, once, Count(tag, tags[1..]));
      assert (if tags[0] == tag then [t] else []) == Repeat(t, once);
    } else {
      assert Repeat(t, 0) == [];
    }
  }

  lemma {:induction false} FileTodoBuckets(g: seq<StatusGroup>, t: Todo, status: Status)
    ensures BucketsOf(FileTodo(g, t), status) ==
      if status == StatusOf(t) then FileUnderAll(BucketsOf(g, status), FilingTags(t), t)
      else BucketsOf(g, status)
  {
    if |g| > 0 && g[0].status != StatusOf(t) {
      var r := FileTodo(g, t);
      assert r[0] == g[0] && r[1..] == FileTodo(g[1..], t);
      FileTodoBuckets(g[1..], t, status);
    }
  }

  /** One reduce step extends exactly the buckets the todo is filed under, by that todo, at the end. */
  lemma FileTodoLookup(g: seq<StatusGroup>, t: Todo, status: Status, tag: string)
    ensures BucketOf(BucketsOf(FileTodo(g, t), status), tag)
      == BucketOf(BucketsOf(g, status), tag) + Contribution(t, status, tag)
  {
    FileTodoBuckets(g, t, status);
    if status == StatusOf(t) {
      FileUnderAllLookup(BucketsOf(g, status), FilingTags(t), t, tag);
    }
  }

  lemma {:induction false} ExpectedSnoc(todos: seq<Todo>, t: Todo, status: Status, tag: string)
    ensures Expected(todos + [t], status, tag) == Expected(todos, status, tag) + Contribution(t, status, tag)
  {
    if |todos| == 0 {
      assert [t][1..] == [];
    } else {
      assert (todos + [t])[1..] == todos[1..] + [t];
      ExpectedSnoc(todos[1..], t, status, tag);
    }
  }

  /**
   * Every bucket of the grouping is the reference bucket: the todos of that
   * status carrying that tag (or untagged, for the sentinel), in input order.
   */
  lemma {:induction false} GroupTodosLookup(todos: seq<Todo>, status: Status, tag: string)
    ensures BucketOf(BucketsOf(GroupTodos(todos), status), tag) == Expected(todos, status, tag)
  {
    if |todos| > 0 {
      var init, last := todos[..|todos| - 1], todos[|todos| - 1];
      GroupTodosLookup(init, status, tag);
      FileTodoLookup(GroupTodos(init), last, status, tag);
      assert todos == init + [last];
      ExpectedSnoc(init, last, status, tag);
    }
  }

  // ---------------------------------------------------------------------------
  // Sizes

  lemma {:induction false} FileUnderSize(bs: seq<TagBucket>, key: string, t: Todo)
    ensures BucketsSize(FileUnder(bs, key, t)) == BucketsSize(bs) + 1
  {
    if |bs| > 0 {
      var r := FileUnder(bs, key, t);
      if bs[0].tag == key {
        assert r[1..] == bs[1..];
      } else {
        assert r[1..] == FileUnder(bs[1..], key, t);
        FileUnderSize(bs[1..], key, t);
      }
    } else {
      assert FileUnder(bs, key, t)[1..] == [];
    }
  }

  lemma {:induction false} FileUnderAllSize(bs: seq<TagBucket>, tags: seq<string>, t: Todo)
    ensures BucketsSize(FileUnderAll(bs, tags, t)) == BucketsSize(bs) + |tags|
    decreases |tags|
  {
    if |tags| > 0 {
      FileUnderSize(bs, tags[0], t);
      FileUnderAllSize(FileUnder(bs, tags[0], t), tags[1..], t);
    }
  }

  lemma {:induction false} FileTodoSize(g: seq<StatusGroup>, t: Todo)
    ensures GroupsSize(FileTodo(g, t)) == GroupsSize(g) + |FilingTags(t)|
  {
    var r := FileTodo(g, t);
    if |g| == 0 {
      FileUnderAllSize([], FilingTags(t), t);
      assert r[1..] == [];
    } else if g[0].status == StatusOf(t) {
      FileUnderAllSize(g[0].buckets, FilingTags(t), t);
      assert r[1..] == g[1..];
    } else {
      assert r[1..] == FileTodo(g[1..], t);
      FileTodoSize(g[1..], t);
    }
  }

  lemma {:induction false} FilingCountSnoc(todos: seq<Todo>, t: Todo)
    ensures FilingCount(todos + [t]) == FilingCount(todos) + |FilingTags(t)|
  {
    if |todos| == 0 {
      assert [t][1..] == [];
    } else {
      assert (todos + [t])[1..] == todos[1..] + [t];
      FilingCountSnoc(todos[1..], t);
    }
  }

  // ---------------------------------------------------------------------------
  // Keys

  predicate NoEmptyBucket(bs: seq<TagBucket>) {
    forall i :: 0 <= i < |bs| ==> |bs[i].todos| > 0
  }

  /** A new key is appended after the existing ones; an existing key keeps its place. */
  lemma {:induction false} FileUnderKeys(bs: seq<TagBucket>, key: string, t: Todo)
    ensures TagsIn(FileUnder(bs, key, t)) == if key in TagsIn(bs) then TagsIn(bs) else TagsIn(bs) + [key]
  {
    var r := FileUnder(bs, key, t);
    if |bs| > 0 {
      TagsInCons(bs[0], bs[1..]);
      assert [bs[0]] + bs[1..] == bs;
      if bs[0].tag == key {
        assert r == [bs[0].(todos := bs[0].todos + [t])] + bs[1..];
        TagsInCons(bs[0].(todos := bs[0].todos + [t]), bs[1..]);
      } else {
        var rest := FileUnder(bs[1..], key, t);
        assert r == [bs[0]] + rest;
        TagsInCons(bs[0], rest);
        FileUnderKeys(bs[1..], key, t);
      }
    }
  }

  lemma TagsInCons(b: TagBucket, bs: seq<TagBucket>)
    ensures TagsIn([b] + bs) == [b.tag] + TagsIn(bs)
  {
  }

  /** Filing a todo never leaves a bucket empty. */
  lemma {:induction false} FileUnderNonEmpty(bs: seq<TagBucket>, key: string, t: Todo)
    requires NoEmptyBucket(bs)
    ensures NoEmptyBucket(FileUnder(bs, key, t))
  {
    var r := FileUnder(bs, key, t);
    if |bs| > 0 && bs[0].tag != key {
      var rest := FileUnder(bs[1..], key, t);
      assert r == [bs[0]] + rest;
      FileUnderNonEmpty(bs[1..], key, t);
      forall i | 0 <= i < |r| ensures |r[i].todos| > 0 {
        if i > 0 { assert r[i] == rest[i - 1]; }
      }
    }
  }

  lemma DistinctSnoc<K>(keys: seq<K>, key: K)
    requires Distinct(keys) && key !in keys
    ensures Distinct(keys + [key])
  {
  }

  lemma {:induction false} FileUnderAllWellFormed(bs: seq<TagBucket>, tags: seq<string>, t: Todo)
    requires BucketsWellFormed(bs)
    ensures BucketsWellFormed(FileUnderAll(bs, tags, t))
    ensures |tags| > 0 ==> |FileUnderAll(bs, tags, t)| > 0
    decreases |tags|
  {
    if |tags| > 0 {
      var next := FileUnder(bs, tags[0], t);
      FileUnderKeys(bs, tags[0], t);
      FileUnderNonEmpty(bs, tags[0], t);
      if tags[0] !in TagsIn(bs) { DistinctSnoc(TagsIn(bs), tags[0]); }
      FileUnderAllWellFormed(next, tags[1..], t);
      if |tags| == 1 {
        assert |TagsIn(next)| > 0;
      }
    }
  }

  lemma {:induction false} FileTodoKeys(g: seq<StatusGroup>, t: Todo)
    ensures StatusesIn(FileTodo(g, t)) ==
      if StatusOf(t) in StatusesIn(g) then StatusesIn(g) else StatusesIn(g) + [StatusOf(t)]
  {
    var r := FileTodo(g, t);
    if |g| > 0 {
      if g[0].status == StatusOf(t) {
        assert r[1..] == g[1..];
        assert StatusesIn(r) == StatusesIn(g);
      } else {
        var rest := FileTodo(g[1..], t);
        assert r == [g[0]] + rest;
        FileTodoKeys(g[1..], t);
        assert StatusesIn(g) == [g[0].status] + StatusesIn(g[1..]);
        assert StatusesIn(r) == [g[0].status] + StatusesIn(rest);
      }
    }
  }

  lemma GroupsWellFormedTail(g: seq<StatusGroup>)
    requires |g| > 0 && GroupsWellFormed(g)
    ensures GroupsWellFormed(g[1..])
  {
    assert StatusesIn(g[1..]) == StatusesIn(g)[1..];
    forall i | 0 <= i < |g[1..]| ensures |g[1..][i].buckets| > 0 && BucketsWellFormed(g[1..][i].buckets) {
      assert g[1..][i] == g[i + 1];
    }
  }

  /** Buckets of every group after filing a todo: the old ones, or the old ones extended. */
  lemma {:induction false} FileTodoGroupsOk(g: seq<StatusGroup>, t: Todo)
    requires AllGroupsWellFormed(g)
    ensures AllGroupsWellFormed(FileTodo(g, t))
  {
    var r := FileTodo(g, t);
    var filed := FilingTags(t);
    if |g| == 0 {
      FileUnderAllWellFormed([], filed, t);
    } else if g[0].status == StatusOf(t) {
      FileUnderAllWellFormed(g[0].buckets, filed, t);
      forall i | 0 <= i < |r| ensures |r[i].buckets| > 0 && BucketsWellFormed(r[i].buckets) {
        if i > 0 { assert r[i] == g[i]; }
      }
    } else {
      var rest := FileTodo(g[1..], t);
      assert r == [g[0]] + rest;
      assert forall i :: 0 <= i < |g| - 1 ==> g[1..][i] == g[i + 1];
      FileTodoGroupsOk(g[1..], t);
      forall i | 0 <= i < |r| ensures |r[i].buckets| > 0 && BucketsWellFormed(r[i].buckets) {
        if i > 0 { assert r[i] == rest[i - 1]; } else { assert r[i] == g[0]; }
      }
    }
  }

  lemma FileTodoWellFormed(g: seq<StatusGroup>, t: Todo)
    requires GroupsWellFormed(g)
    ensures GroupsWellFormed(FileTodo(g, t))
  {
    FileTodoKeys(g, t);
    if StatusOf(t) !in StatusesIn(g) { DistinctSnoc(StatusesIn(g), StatusOf(t)); }
    FileTodoGroupsOk(g, t);
  }

  /** The grouping is shaped like the nested object: one group per status, one bucket per tag within a group, no empty bucket. */
  lemma {:induction false} GroupTodosWellFormed(todos: seq<Todo>)
    ensures GroupsWellFormed(GroupTodos(todos))
  {
    if |todos| > 0 {
      GroupTodosWellFormed(todos[..|todos| - 1]);
      FileTodoWellFormed(GroupTodos(todos[..|todos| - 1]), todos[|todos| - 1]);
    }
  }

  /** With no empty bucket, a key is present exactly when its bucket is nonempty. */
  lemma {:induction false} KeyPresence(bs: seq<TagBucket>, tag: string)
    requires NoEmptyBucket(bs)
    ensures tag in TagsIn(bs) <==> |BucketOf(bs, tag)| > 0
  {
    if |bs| > 0 && bs[0].tag != tag {
      assert TagsIn(bs) == [bs[0].tag] + TagsIn(bs[1..]);
      KeyPresence(bs[1..], tag);
    }
  }

  lemma {:induction false} StatusPresence(g: seq<StatusGroup>, status: Status)
    requires GroupsWellFormed(g)
    ensures status in StatusesIn(g) <==> |BucketsOf(g, status)| > 0
  {
    if |g| > 0 && g[0].status != status {
      assert StatusesIn(g) == [g[0].status] + StatusesIn(g[1..]);
      GroupsWellFormedTail(g);
      StatusPresence(g[1..], status);
    }
  }

  lemma {:induction false} CountPositive(tag: string, tags: seq<string>)
    ensures Count(tag, tags) > 0 <==> tag in tags
  {
    if |tags| > 0 {
      CountPositive(tag, tags[1..]);
      assert tags == [tags[0]] + tags[1..];
    }
  }

  /** Some todo of the list has that status and is filed under that tag. */
  predicate FiledSomewhere(todos: seq<Todo>, status: Status, tag: string) {
    exists i :: 0 <= i < |todos| && StatusOf(todos[i]) == status && tag in FilingTags(todos[i])
  }

  predicate HasStatus(todos: seq<Todo>, status: Status) {
    exists i :: 0 <= i < |todos| && StatusOf(todos[i]) == status
  }

  lemma {:induction false} ExpectedNonempty(todos: seq<Todo>, status: Status, tag: string)
    ensures |Expected(todos, status, tag)| > 0 <==> FiledSomewhere(todos, status, tag)
  {
    if |todos| > 0 {
      ExpectedNonempty(todos[1..], status, tag);
      CountPositive(tag, FilingTags(todos[0]));
      if FiledSomewhere(todos[1..], status, tag) {
        var i :| 0 <= i < |todos[1..]| && StatusOf(todos[1..][i]) == status && tag in FilingTags(todos[1..][i]);
        assert todos[i + 1] == todos[1..][i];
      }
      if FiledSomewhere(todos, status, tag) {
        var i :| 0 <= i < |todos| && StatusOf(todos[i]) == status && tag in FilingTags(todos[i]);
        if i > 0 { assert todos[1..][i - 1] == todos[i]; }
      }
    }
  }

  /**
   * `groupTodosByStatusAndTag` as a whole: keys are distinct and no bucket is
   * empty; a status key exists exactly when some todo has that status, a tag
   * key exactly when some todo of that status is filed under it; each bucket
   * is the reference bucket; and the buckets hold max(1, |tags|) entries per todo.
   */
  lemma GroupTodosSpec(todos: seq<Todo>)
    ensures GroupsWellFormed(GroupTodos(todos))
    ensures forall status, tag :: BucketOf(BucketsOf(GroupTodos(todos), status), tag) == Expected(todos, status, tag)
    ensures forall status :: status in StatusesIn(GroupTodos(todos)) <==> HasStatus(todos, status)
    ensures forall status, tag :: tag in TagsIn(BucketsOf(GroupTodos(todos), status)) <==> FiledSomewhere(todos, status, tag)
    ensures GroupsSize(GroupTodos(todos)) == FilingCount(todos)
  {
    var g := GroupTodos(todos);
    GroupTodosWellFormed(todos);
    forall status, tag ensures BucketOf(BucketsOf(g, status), tag) == Expected(todos, status, tag) {
      GroupTodosLookup(todos, status, tag);
    }
    forall status, tag ensures tag in TagsIn(BucketsOf(g, status)) <==> FiledSomewhere(todos, status, tag) {
      var bs := BucketsOf(g, status);
      BucketsOfWellFormed(g, status);
      KeyPresence(bs, tag);
      GroupTodosLookup(todos, status, tag);
      ExpectedNonempty(todos, status, tag);
    }
    forall status ensures status in StatusesIn(g) <==> HasStatus(todos, status) {
      StatusPresence(g, status);
      var bs := BucketsOf(g, status);
      BucketsOfWellFormed(g, status);
      if |bs| > 0 {
        var tag := bs[0].tag;
        assert BucketOf(bs, tag) == bs[0].todos;
        GroupTodosLookup(todos, status, tag);
        ExpectedNonempty(todos, status, tag);
      }
      if HasStatus(todos, status) {
        var i :| 0 <= i < |todos| && StatusOf(todos[i]) == status;
        var tag := FilingTags(todos[i])[0];
        assert FiledSomewhere(todos, status, tag);
        ExpectedNonempty(todos, status, tag);
        GroupTodosLookup(todos, status, tag);
      }
    }
  }

  lemma {:induction false} BucketsOfWellFormed(g: seq<StatusGroup>, status: Status)
    requires GroupsWellFormed(g)
    ensures BucketsWellFormed(BucketsOf(g, status))
  {
    if |g| > 0 && g[0].status != status {
      GroupsWellFormedTail(g);
      BucketsOfWellFormed(g[1..], status);
    }
  }

  /** A status has a group exactly when some todo has that status. */
  lemma GroupHasStatus(todos: seq<Todo>, status: Status)
    ensures |BucketsOf(GroupTodos(todos), status)| > 0 <==> HasStatus(todos, status)
  {
    GroupTodosSpec(todos);
    StatusPresence(GroupTodos(todos), status);
  }
}

=== FILE: hashtags.dfy ===
/**
 * Hashtag parsing of a new todo's raw input: `raw.match(/#\w+/g) || []` gives
 * the tags and `raw.replace(/#\w+/g, "").trim()` the content.
 *
 * The global scan is modelled as a split of the input into pieces: a `Tag`
 * for each match and a `Plain` for each character the regular expression
 * steps over. `IsMatchSplit` states what a leftmost, greedy scan produces,
 * independently of how `Tokenize` computes it.
 */
module Hashtags {
  import opened Text

  datatype Piece = Tag(text: string) | Plain(c: char)

  function PieceText(p: Piece): (t: string)
    ensures |t| > 0 || p.Tag?
  {
    match p
    case Tag(t) => t
    case Plain(c) => [c]
  }

  /** The input a split was taken from. */
  function Join(ps: seq<Piece>): string {
    if |ps| == 0 then "" else PieceText(ps[0]) + Join(ps[1..])
  }

  /** A token `#\w+`: a `#` followed by one or more word characters. */
  predicate IsTag(t: string) {
    |t| >= 2 && t[0] == '#' && forall k :: 1 <= k < |t| ==> IsWordChar(t[k])
  }

  /**
   * A piece after which a word character would have changed the scan: a tag
   * (the match is greedy) or a lone `#` (a match would have started there).
   */
  predicate Extendable(p: Piece) {
    p.Tag? || p == Plain('#')
  }

  /** The next piece does not start with a word character. */
  predicate NotWordStart(p: Piece) {
    p.Tag? || !IsWordChar(p.c)
  }

  /** What `/#\w+/g` produces: well-formed tags, none extensible and none missed. */
  predicate IsMatchSplit(ps: seq<Piece>) {
    && (forall i :: 0 <= i < |ps| && ps[i].Tag? ==> IsTag(ps[i].text))
    && (forall i :: 0 <= i < |ps| - 1 && Extendable(ps[i]) ==> NotWordStart(ps[i + 1]))
  }

  /** Length of the longest prefix of `s` made of word characters. */
  function WordRun(s: string): (n: nat)
    ensures n <= |s|
    ensures forall k :: 0 <= k < n ==> IsWordChar(s[k])
    ensures n < |s| ==> !IsWordChar(s[n])
  {
    if |s| > 0 && IsWordChar(s[0]) then 1 + WordRun(s[1..]) else 0
  }

  lemma JoinCons(p: Piece, ps: seq<Piece>)
    ensures Join([p] + ps) == PieceText(p) + Join(ps)
  {
    assert ([p] + ps)[1..] == ps;
  }

  /** A split's input starts with the first character of its first piece. */
  lemma JoinHead(ps: seq<Piece>)
    requires |ps| > 0 && IsMatchSplit(ps)
    ensures |Join(ps)| > 0
    ensures Join(ps)[0] == PieceText(ps[0])[0]
    ensures ps[0].Plain? ==> Join(ps)[0] == ps[0].c
    ensures ps[0].Tag? ==> Join(ps)[0] == '#'
  {
  }

  /** Prepending a well-formed piece keeps a split a match split when it cannot be extended. */
  lemma ConsMatchSplit(p: Piece, rest: seq<Piece>)
    requires IsMatchSplit(rest)
    requires p.Tag? ==> IsTag(p.text)
    requires Extendable(p) && |rest| > 0 ==> NotWordStart(rest[0])
    ensures IsMatchSplit([p] + rest)
  {
    var ps := [p] + rest;
    forall i | 0 <= i < |ps| - 1 && Extendable(ps[i]) ensures NotWordStart(ps[i + 1]) {
      if i > 0 { assert ps[i] == rest[i - 1] && ps[i + 1] == rest[i]; }
    }
  }

  /** The step of Tokenize that emits the tag `s[..n]`. */
  lemma TagStep(s: string, n: nat, rest: seq<Piece>)
    requires 2 <= n <= |s| && IsTag(s[..n])
    requires n < |s| ==> !IsWordChar(s[n])
    requires Join(rest) == s[n..] && IsMatchSplit(rest)
    ensures Join([Tag(s[..n])] + rest) == s
    ensures IsMatchSplit([Tag(s[..n])] + rest)
  {
    JoinCons(Tag(s[..n]), rest);
    assert s == s[..n] + s[n..];
    if |rest| > 0 { JoinHead(rest); }
    ConsMatchSplit(Tag(s[..n]), rest);
  }

  /** The step of Tokenize that steps over the character `s[0]`. */
  lemma PlainStep(s: string, rest: seq<Piece>)
    requires |s| > 0
    requires s[0] == '#' && |s| > 1 ==> !IsWordChar(s[1])
    requires Join(rest) == s[1..] && IsMatchSplit(rest)
    ensures Join([Plain(s[0])] + rest) == s
    ensures IsMatchSplit([Plain(s[0])] + rest)
  {
    JoinCons(Plain(s[0]), rest);
    assert s == [s[0]] + s[1..];
    if |rest| > 0 { JoinHead(rest); }
    ConsMatchSplit(Plain(s[0]), rest);
  }

  /** The global scan of `/#\w+/g`, left to right. */
  function Tokenize(s: string): (ps: seq<Piece>)
    ensures Join(ps) == s
    ensures IsMatchSplit(ps)
    decreases |s|
  {
    if |s| == 0 then []
    else if s[0] == '#' && |s| > 1 && IsWordChar(s[1]) then
      var n := 1 + WordRun(s[1..]);
      var rest := Tokenize(s[n..]);
      TagStep(s, n, rest);
      [Tag(s[..n])] + rest
    else
      var rest := Tokenize(s[1..]);
      PlainStep(s, rest);
      [Plain(s[0])] + rest
  }

  /** Any piece after the first of a match split is itself a match split. */
  lemma MatchSplitTail(ps: seq<Piece>)
    requires |ps| > 0 && IsMatchSplit(ps)
    ensures IsMatchSplit(ps[1..])
  {
    var rest := ps[1..];
    forall i | 0 <= i < |rest| - 1 && Extendable(rest[i]) ensures NotWordStart(rest[i + 1]) {
      assert rest[i] == ps[i + 1] && rest[i + 1] == ps[i + 2];
    }
  }

  /**
   * The scan is the only match split of its input: whatever splits `s` into
   * well-formed tags, greedily and without skipping a match, is `Tokenize(s)`.
   */
  lemma {:induction false} TokenizeUnique(s: string, ps: seq<Piece>)
    requires IsMatchSplit(ps) && Join(ps) == s
    ensures ps == Tokenize(s)
    decreases |s|
  {
    if |ps| > 0 {
      var p, rest := ps[0], ps[1..];
      assert ps == [p] + rest;
      JoinCons(p, rest);
      MatchSplitTail(ps);
      if |rest| > 0 { JoinHead(rest); }
      var k := |PieceText(p)|;
      assert s[..k] == PieceText(p) && s[k..] == Join(rest);
      if s[0] == '#' && |s| > 1 && IsWordChar(s[1]) {
        var n := 1 + WordRun(s[1..]);
        assert p.Tag?;
        assert k == n;
        TokenizeUnique(s[n..], rest);
      } else {
        assert p.Plain?;
        TokenizeUnique(s[1..], rest);
      }
    }
  }

  /** The matched tags of a split, in order. */
  function TagsOf(ps: seq<Piece>): seq<string> {
    if |ps| == 0 then []
    else (if ps[0].Tag? then [ps[0].text] else []) + TagsOf(ps[1..])
  }

  /** The characters of a split that no match covers, in order. */
  function PlainOf(ps: seq<Piece>): string {
    if |ps| == 0 then ""
    else (if ps[0].Plain? then [ps[0].c] else "") + PlainOf(ps[1..])
  }

  function TotalLength(ts: seq<string>): nat {
    if |ts| == 0 then 0 else |ts[0]| + TotalLength(ts[1..])
  }

  /** `raw.match(/#\w+/g) || []`: every match, left to right. */
  function ExtractTags(raw: string): (tags: seq<string>)
    ensures forall i :: 0 <= i < |tags| ==> IsTag(tags[i])
  {
    var ps := Tokenize(raw);
    TagsOfMatchSplit(ps);
    TagsOf(ps)
  }

  /**
   * `raw.replace(/#\w+/g, "")`: the input with every match deleted. What is
   * deleted is exactly the tags' characters, and no `#` of what is left is
   * followed by a word character.
   */
  function StripTags(raw: string): (stripped: string)
    ensures |stripped| + TotalLength(ExtractTags(raw)) == |raw|
    ensures NoHashWord(stripped)
  {
    var ps := Tokenize(raw);
    SplitLengths(ps);
    StripNoHashWord(ps);
    PlainOf(ps)
  }

  /** The content of a new todo: the input without its tags, trimmed. */
  function ParseContent(raw: string): (content: string)
    ensures |content| == 0 || (!IsWhitespace(content[0]) && !IsWhitespace(content[|content| - 1]))
  {
    Trim(StripTags(raw))
  }

  lemma {:induction false} TagsOfMatchSplit(ps: seq<Piece>)
    requires IsMatchSplit(ps)
    ensures forall i :: 0 <= i < |TagsOf(ps)| ==> IsTag(TagsOf(ps)[i])
  {
    if |ps| > 0 {
      MatchSplitTail(ps);
      TagsOfMatchSplit(ps[1..]);
    }
  }

  /**
   * Parsing is determined by the match split alone: for the one split of
   * `raw` that `/#\w+/g` produces, the tags are its tag pieces and the
   * stripped text its plain pieces, both in input order.
   */
  lemma ParseIsMatchSplit(raw: string, ps: seq<Piece>)
    requires IsMatchSplit(ps) && Join(ps) == raw
    ensures ExtractTags(raw) == TagsOf(ps)
    ensures StripTags(raw) == PlainOf(ps)
  {
    TokenizeUnique(raw, ps);
  }

  /** Tags and stripped text together account for every character of the input. */
  lemma {:induction false} SplitLengths(ps: seq<Piece>)
    ensures |Join(ps)| == TotalLength(TagsOf(ps)) + |PlainOf(ps)|
  {
    if |ps| > 0 {
      var rest := ps[1..];
      SplitLengths(rest);
      assert |Join(ps)| == |PieceText(ps[0])| + |Join(rest)|;
      if ps[0].Tag? {
        assert TagsOf(ps) == [ps[0].text] + TagsOf(rest);
        assert ([ps[0].text] + TagsOf(rest))[1..] == TagsOf(rest);
        assert PlainOf(ps) == PlainOf(rest);
      } else {
        assert TagsOf(ps) == TagsOf(rest);
        assert |PlainOf(ps)| == 1 + |PlainOf(rest)|;
      }
    }
  }

  /** No `#` in `s` is directly followed by a word character. */
  predicate NoHashWord(s: string) {
    forall i :: 0 <= i < |s| - 1 && s[i] == '#' ==> !IsWordChar(s[i + 1])
  }

  /** A split whose characters outside the tags are all whitespace: input made only of tags. */
  predicate OnlyTagsAndSpaces(ps: seq<Piece>) {
    forall i :: 0 <= i < |ps| && ps[i].Plain? ==> IsWhitespace(ps[i].c)
  }

  /**
   * Input that the scan splits into tags and whitespace only is not blank,
   * yields exactly those tags, and leaves empty content.
   */
  lemma TagsOnlyInput(ps: seq<Piece>)
    requires IsMatchSplit(ps) && OnlyTagsAndSpaces(ps) && |TagsOf(ps)| > 0
    ensures !AllWhitespace(Join(ps))
    ensures ExtractTags(Join(ps)) == TagsOf(ps)
    ensures ParseContent(Join(ps)) == ""
  {
    ParseIsMatchSplit(Join(ps), ps);
    PlainOfSpaces(ps);
    TagMakesNonBlank(ps);
  }

  lemma {:induction false} PlainOfSpaces(ps: seq<Piece>)
    requires OnlyTagsAndSpaces(ps)
    ensures AllWhitespace(PlainOf(ps))
  {
    if |ps| > 0 {
      var rest := ps[1..];
      assert OnlyTagsAndSpaces(rest) by {
        forall i | 0 <= i < |rest| && rest[i].Plain? ensures IsWhitespace(rest[i].c) {
          assert rest[i] == ps[i + 1];
        }
      }
      PlainOfSpaces(rest);
      AllWhitespaceConcat(if ps[0].Plain? then [ps[0].c] else "", PlainOf(rest));
    }
  }

  lemma {:induction false} TagMakesNonBlank(ps: seq<Piece>)
    requires forall i :: 0 <= i < |ps| && ps[i].Tag? ==> IsTag(ps[i].text)
    requires |TagsOf(ps)| > 0
    ensures !AllWhitespace(Join(ps))
  {
    var j, h, rest := Join(ps), PieceText(ps[0]), ps[1..];
    assert j == h + Join(rest);
    if ps[0].Tag? {
      assert j[0] == '#';
    } else {
      forall i | 0 <= i < |rest| && rest[i].Tag? ensures IsTag(rest[i].text) {
        assert rest[i] == ps[i + 1];
      }
      TagMakesNonBlank(rest);
      var k :| 0 <= k < |Join(rest)| && !IsWhitespace(Join(rest)[k]);
      assert j[|h| + k] == Join(rest)[k];
    }
  }

  /** A contiguous piece of a string with no `#`-word has none either. */
  lemma NoHashWordSlice(s: string, i: nat, n: nat)
    requires NoHashWord(s) && i + n <= |s|
    ensures NoHashWord(s[i..i + n])
  {
    var t := s[i..i + n];
    forall k | 0 <= k < |t| - 1 && t[k] == '#' ensures !IsWordChar(t[k + 1]) {
      assert t[k] == s[i + k] && t[k + 1] == s[i + k + 1];
    }
  }

  /** A string has no tag exactly when no `#` in it is followed by a word character. */
  lemma {:induction false} NoTagsIff(s: string)
    ensures ExtractTags(s) == [] <==> NoHashWord(s)
    decreases |s|
  {
    var ps := Tokenize(s);
    if |s| > 0 {
      if s[0] == '#' && |s| > 1 && IsWordChar(s[1]) {
        assert ps[0].Tag?;
        assert TagsOf(ps) != [];
      } else {
        var rest := Tokenize(s[1..]);
        assert ps == [Plain(s[0])] + rest;
        assert ps[1..] == rest;
        assert TagsOf(ps) == TagsOf(rest);
        NoTagsIff(s[1..]);
        assert NoHashWord(s) <==> NoHashWord(s[1..]) by {
          if NoHashWord(s[1..]) {
            forall i | 0 <= i < |s| - 1 && s[i] == '#' ensures !IsWordChar(s[i + 1]) {
              if i > 0 { assert s[i] == s[1..][i - 1] && s[i + 1] == s[1..][i]; }
            }
          }
          if NoHashWord(s) {
            forall i | 0 <= i < |s[1..]| - 1 && s[1..][i] == '#' ensures !IsWordChar(s[1..][i + 1]) {
              assert s[1..][i] == s[i + 1];
            }
          }
        }
      }
    }
  }

  /** After a piece that does not start with a word character, the stripped text does not either. */
  lemma {:induction false} StripHead(ps: seq<Piece>)
    requires IsMatchSplit(ps) && |ps| > 0 && NotWordStart(ps[0])
    ensures |PlainOf(ps)| == 0 || !IsWordChar(PlainOf(ps)[0])
  {
    MatchSplitTail(ps);
    if ps[0].Tag? && |ps| > 1 {
      assert Extendable(ps[0]);
      StripHead(ps[1..]);
    }
  }

  lemma {:induction false} StripNoHashWord(ps: seq<Piece>)
    requires IsMatchSplit(ps)
    ensures NoHashWord(PlainOf(ps))
  {
    if |ps| > 0 {
      var rest := ps[1..];
      MatchSplitTail(ps);
      StripNoHashWord(rest);
      var tail := PlainOf(rest);
      if ps[0].Plain? {
        var s := PlainOf(ps);
        assert s == [ps[0].c] + tail;
        if ps[0].c == '#' && |rest| > 0 {
          assert Extendable(ps[0]);
          StripHead(rest);
        }
        forall i | 0 <= i < |s| - 1 && s[i] == '#' ensures !IsWordChar(s[i + 1]) {
          if i > 0 { assert s[i] == tail[i - 1] && s[i + 1] == tail[i]; }
        }
      }
    }
  }

  /**
   * Deleting the matches leaves nothing to match: the content of a todo holds
   * no further `#\w+` token.
   */
  lemma ContentHasNoTags(raw: string)
    ensures ExtractTags(StripTags(raw)) == []
    ensures ExtractTags(ParseContent(raw)) == []
  {
    var stripped := StripTags(raw);
    NoTagsIff(stripped);
    var content := Trim(stripped);
    var i := LeadingWhitespace(stripped);
    NoHashWordSlice(stripped, i, |content|);
    NoTagsIff(content);
  }
}

=== FILE: parse_int.dfy ===
/**
 * `parseInt(s, 16)` as ECMA-262 defines it, which the chain-changed handler
 * applies to the chain id a wallet reports. `None` stands for `NaN`.
 */
module ParseInt {
  import opened Wrappers
  import opened Text

  predicate IsHexDigit(c: char) {
    ('0' <= c <= '9') || ('a' <= c <= 'f') || ('A' <= c <= 'F')
  }

  function HexDigitValue(c: char): (d: nat)
    requires IsHexDigit(c)
    ensures d < 16
  {
    if '0' <= c <= '9' then c as int - '0' as int
    else if 'a' <= c <= 'f' then c as int - 'a' as int + 10
    else c as int - 'A' as int + 10
  }

  /** The lower-case digit for a value below 16. */
  function HexChar(d: nat): (c: char)
    requires d < 16
    ensures IsHexDigit(c) && HexDigitValue(c) == d
  {
    if d < 10 then ('0' as int + d) as char else ('a' as int + d - 10) as char
  }

  predicate AllHexDigits(s: string) {
    forall k :: 0 <= k < |s| ==> IsHexDigit(s[k])
  }

  /** Length of the longest prefix of `s` made of hexadecimal digits. */
  function HexPrefixLength(s: string): (n: nat)
    ensures n <= |s|
    ensures AllHexDigits(s[..n])
    ensures n < |s| ==> !IsHexDigit(s[n])
  {
    if |s| > 0 && IsHexDigit(s[0]) then
      var n := 1 + HexPrefixLength(s[1..]);
      assert s[..n] == [s[0]] + s[1..][..n - 1];
      n
    else 0
  }

  /** The number a string of hexadecimal digits denotes, most significant digit first. */
  function HexValue(digits: string): nat
    requires AllHexDigits(digits)
  {
    if |digits| == 0 then 0
    else HexValue(digits[..|digits| - 1]) * 16 + HexDigitValue(digits[|digits| - 1])
  }

  /** Lower-case hexadecimal numeral of `n`, without prefix or leading zeros. */
  function ToHex(n: nat): (s: string)
    ensures |s| > 0 && AllHexDigits(s)
  {
    if n < 16 then [HexChar(n)] else ToHex(n / 16) + [HexChar(n % 16)]
  }

  /** Whether the text after a sign starts with the prefix `0x` / `0X` that radix 16 skips. */
  predicate HasHexPrefix(u: string) {
    |u| >= 2 && u[0] == '0' && (u[1] == 'x' || u[1] == 'X')
  }

  /**
   * The digits `parseInt` reads once sign and prefix are gone: the longest
   * run of hexadecimal digits, NaN when there is none. A numeral followed by
   * anything that is not a digit reads as the numeral's value.
   */
  function ReadHexDigits(v: string): (r: Option<nat>)
    ensures |v| > 0 && AllHexDigits(v) ==> r == Some(HexValue(v))
  {
    ReadsWholeNumeral(v);
    var n := HexPrefixLength(v);
    if n == 0 then None
    else
      assert n == |v| ==> v[..n] == v;
      Some(HexValue(v[..n]))
  }

  lemma ReadsWholeNumeral(v: string)
    ensures |v| > 0 && AllHexDigits(v) ==> HexPrefixLength(v) == |v|
  {
    if |v| > 0 && AllHexDigits(v) {
      HexPrefixOfDigits(v, "");
      assert v + "" == v;
    }
  }

  /** A numeral followed by text that does not start with a digit reads as the numeral alone. */
  lemma ReadHexDigitsFollowed(h: string, rest: string)
    requires |h| > 0 && AllHexDigits(h)
    requires |rest| == 0 || !IsHexDigit(rest[0])
    ensures ReadHexDigits(h + rest) == Some(HexValue(h))
  {
    HexPrefixOfDigits(h, rest);
    assert (h + rest)[..|h|] == h;
  }

  /**
   * `parseInt(s, 16)`: skip leading whitespace, take an optional sign, skip an
   * optional `0x`, then read the longest run of hexadecimal digits; with no
   * digit at all the result is NaN. Anything after the digits is ignored.
   */
  function ParseIntHex(s: string): (r: Option<int>)
    ensures AllWhitespace(s) ==> r == None
    ensures |s| > 0 && AllHexDigits(s) ==> r == Some(HexValue(s))
  {
    NoWhitespaceBeforeDigits(s);
    SkipsAllWhitespace(s);
    var t := s[LeadingWhitespace(s)..];
    assert |s| > 0 && AllHexDigits(s) ==> t == s;
    var negative := |t| > 0 && t[0] == '-';
    var u := if |t| > 0 && (t[0] == '-' || t[0] == '+') then t[1..] else t;
    var v := if HasHexPrefix(u) then u[2..] else u;
    match ReadHexDigits(v)
    case None => None
    case Some(m) =>
      var magnitude: int := m;
      Some(if negative then -magnitude else magnitude)
  }

  /** A blank string is skipped entirely. */
  lemma SkipsAllWhitespace(s: string)
    ensures AllWhitespace(s) ==> LeadingWhitespace(s) == |s|
  {
  }

  /** A string of digits has no whitespace to skip, no sign and no prefix. */
  lemma NoWhitespaceBeforeDigits(s: string)
    ensures |s| > 0 && AllHexDigits(s) ==>
      LeadingWhitespace(s) == 0 && !HasHexPrefix(s) && s[0] != '-' && s[0] != '+'
  {
    if |s| > 0 && AllHexDigits(s) {
      assert !IsWhitespace(s[0]);
      assert |s| >= 2 ==> IsHexDigit(s[1]);
    }
  }

  lemma {:induction false} HexValueOfToHex(n: nat)
    ensures HexValue(ToHex(n)) == n
  {
    var s := ToHex(n);
    if n >= 16 {
      assert s[..|s| - 1] == ToHex(n / 16);
      HexValueOfToHex(n / 16);
    }
  }

  /**
   * Round trip: the `0x`-prefixed numeral of any `n`, followed by anything that
   * does not start with a hexadecimal digit, parses back to `n`.
   */
  lemma ParseIntHexRoundTrip(n: nat, rest: string)
    requires |rest| == 0 || !IsHexDigit(rest[0])
    ensures ParseIntHex("0x" + ToHex(n) + rest) == Some(n)
  {
    var h := ToHex(n);
    assert "0x" + h + rest == "0x" + (h + rest);
    ParseIntPrefixed(h + rest);
    ReadHexDigitsFollowed(h, rest);
    HexValueOfToHex(n);
  }

  /** With the `0x` prefix up front, `parseInt` reads the digits after it. */
  lemma ParseIntPrefixed(v: string)
    ensures ParseIntHex("0x" + v) == ReadHexDigits(v)
  {
    var s := "0x" + v;
    assert LeadingWhitespace(s) == 0 by { assert !IsWhitespace(s[0]); }
    assert s[0..] == s && s[2..] == v;
  }

  lemma {:induction false} HexPrefixOfDigits(h: string, rest: string)
    requires AllHexDigits(h)
    requires |rest| == 0 || !IsHexDigit(rest[0])
    ensures HexPrefixLength(h + rest) == |h|
  {
    if |h| > 0 {
      assert (h + rest)[1..] == h[1..] + rest;
      HexPrefixOfDigits(h[1..], rest);
    }
  }

  /** Without the prefix the numeral of any `n` parses back to `n` as well. */
  lemma ParseIntHexBare(n: nat)
    ensures ParseIntHex(ToHex(n)) == Some(n)
  {
    HexValueOfToHex(n);
  }

  /** Base's chain id 8453 written in hexadecimal reads as 8453; written in decimal it reads as 0x8453. */
  lemma BaseChainIdSpellings()
    ensures ParseIntHex("0x2105") == Some(8453)
    ensures ParseIntHex("8453") == Some(0x8453)
  {
    HexSpelling();
    DecimalSpelling();
  }

  lemma HexSpelling()
    ensures ParseIntHex("0x2105") == Some(8453)
  {
    assert "0x2105" == "0x" + "2105";
    ParseIntPrefixed("2105");
    ReadOf2105();
  }

  lemma ReadOf2105()
    ensures ReadHexDigits("2105") == Some(8453)
  {
    HexOf2105();
  }

  lemma DecimalSpelling()
    ensures ParseIntHex("8453") == Some(0x8453)
  {
    HexOf8453();
  }

  lemma HexOf2105()
    ensures AllHexDigits("2105") && HexValue("2105") == 0x2105
  {
    assert "2105"[..3] == "210" && "210"[..2] == "21" && "21"[..1] == "2" && "2"[..0] == "";
  }

  lemma HexOf8453()
    ensures AllHexDigits("8453") && HexValue("8453") == 0x8453
  {
    assert "8453"[..3] == "845" && "845"[..2] == "84" && "84"[..1] == "8" && "8"[..0] == "";
  }
}

=== FILE: sorting.dfy ===
/**
 * `Array.prototype.sort(compare)` as used by the view: a stable sort where
 * `compare(a, b) <= 0` lets `a` stay before `b`. The model fixes insertion
 * sort; like the engine's sort it is stable.
 */
module Sorting {

  /** The comparator describes a total preorder, as `Array.prototype.sort` expects of it. */
  ghost predicate Consistent<T(!new)>(compare: (T, T) -> int) {
    && (forall a, b :: compare(a, b) <= 0 || compare(b, a) <= 0)
    && (forall a, b, c :: compare(a, b) <= 0 && compare(b, c) <= 0 ==> compare(a, c) <= 0)
  }

  predicate SortedBy<T>(s: seq<T>, compare: (T, T) -> int) {
    forall i, j :: 0 <= i < j < |s| ==> compare(s[i], s[j]) <= 0
  }

  /** Puts `x` before the first element it may precede. */
  function Insert<T>(x: T, s: seq<T>, compare: (T, T) -> int): (r: seq<T>)
    ensures multiset(r) == multiset(s) + multiset{x}
    ensures |r| == |s| + 1
  {
    if |s| == 0 then [x]
    else if compare(x, s[0]) <= 0 then [x] + s
    else
      var r := [s[0]] + Insert(x, s[1..], compare);
      assert s == [s[0]] + s[1..];
      r
  }

  /** Sorts `s` by inserting each element, from the back, into the sorted rest. */
  function Sort<T>(s: seq<T>, compare: (T, T) -> int): (r: seq<T>)
    ensures multiset(r) == multiset(s)
    ensures |r| == |s|
  {
    if |s| == 0 then []
    else
      var r := Insert(s[0], Sort(s[1..], compare), compare);
      assert s == [s[0]] + s[1..];
      r
  }

  /** `a` may precede every element of `s`. */
  predicate LowerBound<T>(a: T, s: seq<T>, compare: (T, T) -> int) {
    forall k :: 0 <= k < |s| ==> compare(a, s[k]) <= 0
  }

  lemma {:induction false} InsertLowerBound<T>(a: T, x: T, s: seq<T>, compare: (T, T) -> int)
    requires compare(a, x) <= 0 && LowerBound(a, s, compare)
    ensures LowerBound(a, Insert(x, s, compare), compare)
  {
    if |s| > 0 && compare(x, s[0]) > 0 {
      InsertLowerBound(a, x, s[1..], compare);
      var r := Insert(x, s, compare);
      assert r == [s[0]] + Insert(x, s[1..], compare);
      forall k | 0 <= k < |r| ensures compare(a, r[k]) <= 0 {
        if k > 0 { assert r[k] == Insert(x, s[1..], compare)[k - 1]; }
      }
    }
  }

  lemma SortedCons<T>(h: T, t: seq<T>, compare: (T, T) -> int)
    ensures SortedBy([h] + t, compare) <==> LowerBound(h, t, compare) && SortedBy(t, compare)
  {
    var s := [h] + t;
    if LowerBound(h, t, compare) && SortedBy(t, compare) {
      forall i, j | 0 <= i < j < |s| ensures compare(s[i], s[j]) <= 0 {
        if i > 0 { assert s[i] == t[i - 1] && s[j] == t[j - 1]; } else { assert s[j] == t[j - 1]; }
      }
    }
    if SortedBy(s, compare) {
      forall k | 0 <= k < |t| ensures compare(h, t[k]) <= 0 { assert s[0] == h && s[k + 1] == t[k]; assert compare(s[0], s[k + 1]) <= 0; }
      forall i, j | 0 <= i < j < |t| ensures compare(t[i], t[j]) <= 0 { assert s[i + 1] == t[i] && s[j + 1] == t[j]; }
    }
  }

  lemma {:induction false} InsertSorted<T(!new)>(x: T, s: seq<T>, compare: (T, T) -> int)
    requires Consistent(compare) && SortedBy(s, compare)
    ensures SortedBy(Insert(x, s, compare), compare)
  {
    if |s| > 0 {
      assert s == [s[0]] + s[1..];
      SortedCons(s[0], s[1..], compare);
      if compare(x, s[0]) > 0 {
        assert compare(s[0], x) <= 0;
        InsertSorted(x, s[1..], compare);
        InsertLowerBound(s[0], x, s[1..], compare);
        SortedCons(s[0], Insert(x, s[1..], compare), compare);
      } else {
        assert LowerBound(x, s, compare) by {
          forall k | 0 <= k < |s| ensures compare(x, s[k]) <= 0 {
            if k > 0 { assert compare(s[0], s[k]) <= 0; }
          }
        }
        SortedCons(x, s, compare);
      }
    }
  }

  lemma {:induction false} SortSorted<T(!new)>(s: seq<T>, compare: (T, T) -> int)
    requires Consistent(compare)
    ensures SortedBy(Sort(s, compare), compare)
  {
    if |s| > 0 {
      SortSorted(s[1..], compare);
      InsertSorted(s[0], Sort(s[1..], compare), compare);
    }
  }
}

=== FILE: text.dfy ===
/**
 * The character classes and string primitives of JavaScript that the two
 * components rely on: `String.prototype.trim`, `String.prototype.endsWith`
 * and the regular-expression class `\w` (without the `u` flag).
 */
module Text {

  /** The code points `String.prototype.trim` removes: WhiteSpace and LineTerminator of ECMA-262. */
  predicate IsWhitespace(c: char) {
    || c == '\U{0009}' || c == '\U{000A}' || c == '\U{000B}' || c == '\U{000C}' || c == '\U{000D}'
    || c == ' ' || c == '\U{00A0}' || c == '\U{1680}'
    || ('\U{2000}' <= c <= '\U{200A}')
    || c == '\U{2028}' || c == '\U{2029}' || c == '\U{202F}' || c == '\U{205F}'
    || c == '\U{3000}' || c == '\U{FEFF}'
  }

  /** The class `\w` of a regular expression without the `u` flag: `[A-Za-z0-9_]`. */
  predicate IsWordChar(c: char) {
    ('a' <= c <= 'z') || ('A' <= c <= 'Z') || ('0' <= c <= '9') || c == '_'
  }

  predicate AllWhitespace(s: string) {
    forall k :: 0 <= k < |s| ==> IsWhitespace(s[k])
  }

  /** Number of whitespace characters at the start of `s`. */
  function LeadingWhitespace(s: string): (n: nat)
    ensures n <= |s|
    ensures AllWhitespace(s[..n])
    ensures n < |s| ==> !IsWhitespace(s[n])
  {
    if |s| > 0 && IsWhitespace(s[0]) then
      var n := 1 + LeadingWhitespace(s[1..]);
      assert s[..n] == [s[0]] + s[1..][..n - 1];
      n
    else 0
  }

  /** Number of whitespace characters at the end of `s`. */
  function TrailingWhitespace(s: string): (n: nat)
    ensures n <= |s|
    ensures AllWhitespace(s[|s| - n..])
    ensures n < |s| ==> !IsWhitespace(s[|s| - 1 - n])
  {
    if |s| > 0 && IsWhitespace(s[|s| - 1]) then
      var p := s[..|s| - 1];
      var n := 1 + TrailingWhitespace(p);
      assert s[|s| - n..] == p[|p| - (n - 1)..] + [s[|s| - 1]];
      n
    else 0
  }

  /**
   * `String.prototype.trim`: the result is the middle of `s` between a
   * whitespace prefix and a whitespace suffix, and neither starts nor ends
   * with whitespace.
   */
  function Trim(s: string): (r: string)
    ensures |r| == 0 || (!IsWhitespace(r[0]) && !IsWhitespace(r[|r| - 1]))
    ensures var i := LeadingWhitespace(s);
      && i + |r| <= |s|
      && r == s[i..i + |r|]
      && AllWhitespace(s[..i])
      && AllWhitespace(s[i + |r|..])
    ensures |r| == 0 <==> AllWhitespace(s)
  {
    var i := LeadingWhitespace(s);
    var j := TrailingWhitespace(s[i..]);
    TrailingOfRest(s, i, j);
    TrimSlice(s, i, j);
    s[i..|s| - j]
  }

  /** The trailing run of the text after the leading run, counted on the whole string. */
  lemma TrailingOfRest(s: string, i: nat, j: nat)
    requires i <= |s| && j == TrailingWhitespace(s[i..])
    ensures i + j <= |s| && AllWhitespace(s[|s| - j..])
    ensures i + j < |s| ==> !IsWhitespace(s[|s| - 1 - j])
  {
    var rest := s[i..];
    assert rest[|rest| - j..] == s[|s| - j..];
  }

  /**
   * Cutting a maximal whitespace run from each end leaves a string with no
   * whitespace at its ends, which is empty only for an all-whitespace input.
   */
  lemma TrimSlice(s: string, i: nat, j: nat)
    requires i + j <= |s|
    requires AllWhitespace(s[..i]) && (i < |s| ==> !IsWhitespace(s[i]))
    requires AllWhitespace(s[|s| - j..]) && (i + j < |s| ==> !IsWhitespace(s[|s| - 1 - j]))
    ensures var r := s[i..|s| - j];
      && (|r| == 0 || (!IsWhitespace(r[0]) && !IsWhitespace(r[|r| - 1])))
      && (|r| == 0 <==> AllWhitespace(s))
  {
    if i + j == |s| {
      assert s == s[..i] + s[|s| - j..];
      AllWhitespaceConcat(s[..i], s[|s| - j..]);
    } else {
      assert !AllWhitespace(s) by { assert !IsWhitespace(s[i]); }
    }
  }

  lemma AllWhitespaceConcat(a: string, b: string)
    requires AllWhitespace(a) && AllWhitespace(b)
    ensures AllWhitespace(a + b)
  {
    forall k | 0 <= k < |a + b| ensures IsWhitespace((a + b)[k]) {
      if k < |a| { assert (a + b)[k] == a[k]; } else { assert (a + b)[k] == b[k - |a|]; }
    }
  }

  /** `String.prototype.endsWith(suffix)`. */
  predicate EndsWith(s: string, suffix: string) {
    |suffix| <= |s| && s[|s| - |suffix|..] == suffix
  }

  /** Trimming twice removes nothing more than trimming once. */
  lemma TrimIdempotent(s: string)
    ensures Trim(Trim(s)) == Trim(s)
  {
    var r := Trim(s);
    var r2 := Trim(r);
    if |r| > 0 {
      assert LeadingWhitespace(r) == 0;
      assert TrailingWhitespace(r[0..]) == 0;
      assert r[0..] == r;
    }
  }
}

=== FILE: todo_list.dfy ===
/**
 * The state of the TodoList component and the events that change it: wallet
 * initialisation, the page fetch, the optimistic add and completion with
 * their rollbacks, Show More, and the wallet's account and chain
 * notifications. Each event is a function from the state before to the
 * state after; the wallet, the contract and the clock are inputs.
 */
module TodoList {
  import opened Wrappers
  import opened Text
  import opened ParseInt
  import opened Hashtags
  import opened Todos

  /** The chain id of Base, the only chain the component accepts. */
  const BaseChainId: int := 8453

  /** The initial page size, and the step Show More adds to it. */
  const PageStep: nat := 10

  const FetchFailed: string := "Failed to fetch todos. Please make sure you're connected to Base."
  const WrongNetwork: string := "Please connect to the Base network."
  const NoProvider: string := "No Web3 provider detected. Please install MetaMask or another Web3 wallet."
  const InitFailed: string :=
    "Failed to initialize the app. Please make sure you're connected to the Base network and try again."
  const AddFailed: string := "Failed to add todo. Please make sure you're connected to Base and try again."
  const CompleteFailed: string := "Failed to complete todo. Please make sure you're connected to Base and try again."

  /**
   * The component's state hooks. `contractBound` stands for a non-null
   * `contract`; an absent or empty wallet address is `None`. `listening`
   * records whether the wallet's `accountsChanged` and `chainChanged`
   * handlers are registered, which only a successful initialisation does.
   */
  datatype State = State(
    todos: seq<Todo>,
    newTodo: string,
    contractBound: bool,
    error: Option<string>,
    wallet: Option<Address>,
    totalTodos: nat,
    displayedTodos: nat,
    initialLoading: bool,
    listening: bool)

  /** The state on mount. */
  const Mounted: State := State([], "", false, None, None, 0, PageStep, true, false)

  /** What the browser's wallet answers while the contract is initialised. */
  datatype AccountsReply = Granted(accounts: seq<Address>) | Refused(message: string)
  datatype Wallet =
    | NoWallet
    | NetworkError(message: string)
    | OnChain(chainId: int, reply: AccountsReply)

  /** `accounts[0]`, absent when the list is empty; an empty address is as absent as `undefined`. */
  function FirstAccount(accounts: seq<Address>): Option<Address> {
    if |accounts| > 0 && accounts[0] != "" then Some(accounts[0]) else None
  }

  /** `error.message || fallback`. */
  function MessageOr(message: string, fallback: string): string {
    if message != "" then message else fallback
  }

  /** Whether the wallet lets initialisation succeed: a provider on Base that grants account access. */
  predicate OnBase(w: Wallet) {
    w.OnChain? && w.chainId == BaseChainId && w.reply.Granted?
  }

  /**
   * `initializeContract`. On Base with access granted it binds the contract
   * and the first account and registers the wallet's handlers; every other
   * outcome throws before the handlers are registered, ends the loading phase
   * with an error and leaves the contract as it was. Nothing else changes.
   */
  function Initialize(st: State, w: Wallet): (r: State)
    ensures r.(contractBound := st.contractBound, wallet := st.wallet, error := st.error,
               initialLoading := st.initialLoading, listening := st.listening) == st
    ensures OnBase(w) ==>
      r.contractBound && r.wallet == FirstAccount(w.reply.accounts) && r.error == st.error
      && r.initialLoading == st.initialLoading && r.listening
    ensures !OnBase(w) ==>
      r.contractBound == st.contractBound && r.wallet == st.wallet && r.error.Some? && !r.initialLoading
      && r.listening == st.listening
  {
    match w
    case NoWallet => st.(initialLoading := false, error := Some(NoProvider))
    case NetworkError(m) => st.(initialLoading := false, error := Some(MessageOr(m, InitFailed)))
    case OnChain(chainId, reply) =>
      if chainId != BaseChainId then st.(initialLoading := false, error := Some(WrongNetwork))
      else match reply
        case Refused(m) => st.(initialLoading := false, error := Some(MessageOr(m, InitFailed)))
        case Granted(accounts) => st.(wallet := FirstAccount(accounts), contractBound := true, listening := true)
  }

  /** The `getUserTodos` call `fetchTodos` makes, if it makes one: it needs a contract and an account. */
  function FetchRequest(st: State): (req: Option<PageRequest>)
    ensures req.Some? <==> st.contractBound && st.wallet.Some?
    ensures req.Some? ==>
      && req.value.owner == st.wallet.value && req.value.offset == 0 && req.value.limit == st.displayedTodos
  {
    if st.contractBound && st.wallet.Some? then Some(PageRequest(st.wallet.value, 0, st.displayedTodos))
    else None
  }

  /** How the two reads of a fetch ended: the count call first, then the page call. */
  datatype FetchOutcome = CountFailed | ListFailed(total: nat) | Listed(total: nat, page: seq<ContractTodo>)

  /**
   * A started `fetchTodos` settling. The writes do not depend on the state:
   * whatever happened since the reads started, a successful page replaces the
   * list and clears the error, a failure reports, and loading ends. Only the
   * list, the count, the error and the loading flag change.
   */
  function SettleFetch(st: State, outcome: FetchOutcome): (r: State)
    ensures r.(todos := st.todos, totalTodos := st.totalTodos, error := st.error,
               initialLoading := st.initialLoading) == st
    ensures !r.initialLoading
    ensures outcome.Listed? ==>
      && r.error == None && r.totalTodos == outcome.total && |r.todos| == |outcome.page|
      && forall i :: 0 <= i < |r.todos| ==>
           r.todos[i].id >= 0 && r.todos[i].createdAt >= 0 && ToContract(r.todos[i]) == outcome.page[i]
    ensures !outcome.Listed? ==> r.todos == st.todos && r.error == Some(FetchFailed)
    ensures outcome.ListFailed? ==> r.totalTodos == outcome.total
    ensures outcome.CountFailed? ==> r.totalTodos == st.totalTodos
  {
    match outcome
    case CountFailed => st.(error := Some(FetchFailed), initialLoading := false)
    case ListFailed(total) => st.(totalTodos := total, error := Some(FetchFailed), initialLoading := false)
    case Listed(total, page) =>
      st.(totalTodos := total, todos := FromContractPage(page), error := None, initialLoading := false)
  }

  /**
   * `fetchTodos` started and settled with nothing in between. Without a
   * contract or an account it reads nothing and only ends the loading phase.
   */
  function ApplyFetch(st: State, outcome: FetchOutcome): (r: State)
    ensures !r.initialLoading
    ensures FetchRequest(st).None? ==> r.todos == st.todos && r.error == st.error && r.totalTodos == st.totalTodos
  {
    if FetchRequest(st).None? then st.(initialLoading := false) else SettleFetch(st, outcome)
  }

  /** The provisional todo `addTodo` appends: a temporary id, the parsed content and tags, pending. */
  function Provisional(raw: string, tempId: int, now: int): (t: Todo)
    ensures t.id == tempId && !t.isCompleted && t.createdAt == now
    ensures forall i :: 0 <= i < |t.tags| ==> IsTag(t.tags[i])
    ensures ExtractTags(t.content) == []
    ensures |t.content| + TotalLength(t.tags) <= |raw|
  {
    ContentHasNoTags(raw);
    Todo(tempId, ParseContent(raw), ExtractTags(raw), false, now)
  }

  /** The guard of `addTodo`: it tests the raw input, not the content left after the tags. */
  predicate AddAccepted(st: State): (accepted: bool)
    ensures accepted <==> !AllWhitespace(st.newTodo) && st.contractBound
  {
    Trim(st.newTodo) != "" && st.contractBound
  }

  /**
   * `addTodo` up to the transaction: append the provisional todo and clear the
   * input. The earlier todos keep their places, at most one is added, and
   * nothing but the list and the input changes.
   */
  function AddTodo(st: State, tempId: int, now: int): (r: State)
    ensures |st.todos| <= |r.todos| <= |st.todos| + 1 && r.todos[..|st.todos|] == st.todos
    ensures r.(todos := st.todos, newTodo := st.newTodo) == st
  {
    if !AddAccepted(st) then st
    else
      var r := st.(todos := st.todos + [Provisional(st.newTodo, tempId, now)], newTodo := "");
      assert r.todos[..|st.todos|] == st.todos;
      r
  }

  /** The `createTodo(content, tags)` arguments `addTodo` sends, if it sends any. */
  function CreateArgs(st: State): (args: Option<(string, seq<string>)>)
    ensures args.Some? <==> AddAccepted(st)
    ensures args.Some? ==>
      && ExtractTags(args.value.0) == []
      && (forall i :: 0 <= i < |args.value.1| ==> IsTag(args.value.1[i]))
      && |args.value.0| + TotalLength(args.value.1) <= |st.newTodo|
  {
    ContentHasNoTags(st.newTodo);
    if AddAccepted(st) then Some((ParseContent(st.newTodo), ExtractTags(st.newTodo))) else None
  }

  /**
   * The failure branch of `addTodo`: report, and drop every todo carrying the
   * temporary id while keeping every other todo, as often as it occurred.
   */
  function AddTodoFailed(st: State, tempId: int): (r: State)
    ensures r.(todos := st.todos, error := st.error) == st && r.error == Some(AddFailed)
    ensures tempId !in IdsOf(r.todos)
    ensures forall t: Todo :: t.id != tempId ==> multiset(r.todos)[t] == multiset(st.todos)[t]
  {
    WithoutIdCounts(st.todos, tempId);
    st.(error := Some(AddFailed), todos := WithoutId(st.todos, tempId))
  }

  /** `completeTodo` up to the transaction: the optimistic flip. */
  function CompleteTodo(st: State, id: int): (r: State)
    ensures r.(todos := st.todos) == st && |r.todos| == |st.todos|
    ensures AllWithId(r.todos, id, true)
    ensures forall i :: 0 <= i < |r.todos| && st.todos[i].id != id ==> r.todos[i] == st.todos[i]
  {
    st.(todos := SetCompleted(st.todos, id, true))
  }

  /** The failure branch of `completeTodo`: report, and set the flag back to pending. */
  function CompleteTodoFailed(st: State, id: int): (r: State)
    ensures r.(todos := st.todos, error := st.error) == st && r.error == Some(CompleteFailed)
    ensures |r.todos| == |st.todos| && AllWithId(r.todos, id, false)
    ensures forall i :: 0 <= i < |r.todos| && st.todos[i].id != id ==> r.todos[i] == st.todos[i]
  {
    st.(error := Some(CompleteFailed), todos := SetCompleted(st.todos, id, false))
  }

  /**
   * `completeTodo` run to the end with nothing in between. There is no check
   * for a missing contract: the call then throws and the failure branch runs.
   * A confirmed completion leaves the optimistic flip and fetches nothing.
   * Every todo with the id ends completed exactly when the transaction went
   * through; every other field of every todo is kept.
   */
  function CompleteTodoSettled(st: State, id: int, confirmed: bool): (r: State)
    ensures |r.todos| == |st.todos|
    ensures AllWithId(r.todos, id, confirmed && st.contractBound)
    ensures forall i :: 0 <= i < |r.todos| ==> r.todos[i].(isCompleted := st.todos[i].isCompleted) == st.todos[i]
    ensures forall i :: 0 <= i < |r.todos| && st.todos[i].id != id ==> r.todos[i] == st.todos[i]
    ensures r.error == if confirmed && st.contractBound then st.error else Some(CompleteFailed)
    ensures r.(todos := st.todos, error := st.error) == st
  {
    var flipped := CompleteTodo(st, id);
    if confirmed && st.contractBound then flipped else CompleteTodoFailed(flipped, id)
  }

  /**
   * Whether the Show More button exists: only the todo page renders it, after
   * the Loading, error and connect screens have been ruled out, and it
   * compares the page size, not the list length, with the count.
   */
  predicate ShowMoreOffered(st: State): (offered: bool)
    ensures offered <==> ScreenOf(st) == TodoPage(true)
  {
    !st.initialLoading && st.error.None? && st.wallet.Some? && st.displayedTodos < st.totalTodos
  }

  /**
   * The Show More button: the page size grows by ten and nothing else
   * changes; where the button is not rendered there is nothing to click.
   */
  function ShowMore(st: State): (r: State)
    ensures r.(displayedTodos := st.displayedTodos) == st
    ensures r.displayedTodos == (if ShowMoreOffered(st) then st.displayedTodos + PageStep else st.displayedTodos)
  {
    if ShowMoreOffered(st) then st.(displayedTodos := st.displayedTodos + PageStep) else st
  }

  /**
   * The `accountsChanged` listener: the first account (if any) becomes the
   * wallet, the page size goes back to ten and the Loading screen shows;
   * everything else is kept. Before a successful initialisation no handler
   * is registered and the notification changes nothing.
   */
  function AccountsChanged(st: State, accounts: seq<Address>): (r: State)
    ensures !st.listening ==> r == st
    ensures st.listening ==>
      && r.wallet == FirstAccount(accounts) && r.displayedTodos == PageStep && r.initialLoading
      && r.(wallet := st.wallet, displayedTodos := st.displayedTodos, initialLoading := st.initialLoading) == st
    ensures st.listening ==> (r.wallet.Some? <==> |accounts| > 0 && accounts[0] != "")
  {
    if !st.listening then st
    else st.(wallet := FirstAccount(accounts), displayedTodos := PageStep, initialLoading := true)
  }

  /**
   * The `chainChanged` listener; the wallet reports the new id as a
   * hexadecimal string. Any id other than Base's drops the contract and
   * reports, and nothing else; Base's clears the error and initialises
   * again. Before a successful initialisation no handler is registered and
   * the notification changes nothing.
   */
  function ChainChanged(st: State, chainIdHex: string, w: Wallet): (r: State)
    ensures !st.listening ==> r == st
    ensures st.listening && ParseIntHex(chainIdHex) != Some(BaseChainId) ==>
      r == st.(error := Some(WrongNetwork), contractBound := false)
    ensures st.listening ==>
      r.(contractBound := st.contractBound, wallet := st.wallet, error := st.error,
         initialLoading := st.initialLoading) == st
    ensures st.listening && ParseIntHex(chainIdHex) == Some(BaseChainId) ==>
      (r.contractBound <==> st.contractBound || OnBase(w))
      && (OnBase(w) ==> r.error == None && r.initialLoading)
  {
    if !st.listening then st
    else if ParseIntHex(chainIdHex) != Some(BaseChainId) then
      st.(error := Some(WrongNetwork), contractBound := false)
    else
      Initialize(st.(error := None, initialLoading := true), w)
  }

  /** Which of the four screens the component renders. */
  datatype Screen = Loading | ErrorPage(message: string) | ConnectPrompt | TodoPage(showMore: bool)

  /**
   * The screen: Loading takes precedence over an error, an error over the
   * connect prompt, and the todo page shows only with an account, no error
   * and loading over.
   */
  function ScreenOf(st: State): (s: Screen)
    ensures s == Loading <==> st.initialLoading
    ensures s.ErrorPage? <==> !st.initialLoading && st.error.Some?
    ensures s.TodoPage? <==> !st.initialLoading && st.error.None? && st.wallet.Some?
    ensures s.ErrorPage? ==> st.error == Some(s.message)
  {
    if st.initialLoading then Loading
    else if st.error.Some? then ErrorPage(st.error.value)
    else if st.wallet.None? then ConnectPrompt
    else TodoPage(st.displayedTodos < st.totalTodos)
  }

  // ---------------------------------------------------------------------------
  // Adding a todo

  /** `addTodo` does nothing exactly when the raw input trims to nothing or no contract is bound. */
  lemma AddTodoGuard(st: State, tempId: int, now: int)
    ensures AddTodo(st, tempId, now) == st <==> !AddAccepted(st)
    ensures CreateArgs(st).None? <==> !AddAccepted(st)
  {
    if AddAccepted(st) {
      assert |AddTodo(st, tempId, now).todos| == |st.todos| + 1;
    }
  }

  /**
   * An accepted add appends exactly one pending todo carrying the temporary
   * id, the tags of the input and its tag-free trimmed content; the earlier
   * todos and every other field but the input stay as they were.
   */
  lemma AddTodoAppends(st: State, tempId: int, now: int)
    requires AddAccepted(st)
    ensures var r := AddTodo(st, tempId, now);
      && |r.todos| == |st.todos| + 1
      && r.todos[..|st.todos|] == st.todos
      && r.todos[|st.todos|].id == tempId
      && !r.todos[|st.todos|].isCompleted
      && r.todos[|st.todos|].createdAt == now
      && r.todos[|st.todos|].tags == ExtractTags(st.newTodo)
      && r.todos[|st.todos|].content == ParseContent(st.newTodo)
      && ExtractTags(r.todos[|st.todos|].content) == []
      && r.newTodo == ""
      && r.(todos := st.todos, newTodo := st.newTodo) == st
      && CreateArgs(st) == Some((r.todos[|st.todos|].content, r.todos[|st.todos|].tags))
  {
    ContentHasNoTags(st.newTodo);
  }

  /**
   * Failing right after an accepted add gives back the list from before the
   * add exactly when the temporary id was not already in use: the rollback
   * drops every todo with that id.
   */
  lemma AddThenFailRestores(st: State, tempId: int, now: int)
    requires AddAccepted(st)
    ensures AddTodoFailed(AddTodo(st, tempId, now), tempId).todos == st.todos <==> tempId !in IdsOf(st.todos)
  {
    var p := Provisional(st.newTodo, tempId, now);
    var r := AddTodoFailed(AddTodo(st, tempId, now), tempId);
    WithoutIdAppend(st.todos, [p], tempId);
    assert WithoutId([p], tempId) == [];
    assert r.todos == WithoutId(st.todos, tempId);
    if tempId !in IdsOf(st.todos) {
      WithoutAbsentId(st.todos, tempId);
    } else {
      var k :| 0 <= k < |st.todos| && st.todos[k].id == tempId;
      assert st.todos[k] in multiset(st.todos);
      WithoutIdCounts(st.todos, tempId);
      assert st.todos[k] !in multiset(r.todos);
    }
  }

  /**
   * Input made only of tags passes the guard, which tests the raw input, and
   * adds a todo with empty content carrying exactly those tags.
   */
  lemma TagOnlyInputAdds(st: State, tempId: int, now: int, ps: seq<Piece>)
    requires IsMatchSplit(ps) && OnlyTagsAndSpaces(ps) && |TagsOf(ps)| > 0
    requires st.newTodo == Join(ps) && st.contractBound
    ensures AddAccepted(st)
    ensures AddTodo(st, tempId, now).todos == st.todos + [Todo(tempId, "", TagsOf(ps), false, now)]
    ensures CreateArgs(st) == Some(("", TagsOf(ps)))
  {
    TagsOnlyInput(ps);
  }

  // ---------------------------------------------------------------------------
  // Fetching

  /**
   * A successful fetch replaces the list wholesale with the page the
   * contract returned, in order, field for field, and clears the error.
   */
  lemma FetchReplacesTodos(st: State, total: nat, page: seq<ContractTodo>)
    requires FetchRequest(st).Some?
    ensures var r := ApplyFetch(st, Listed(total, page));
      && |r.todos| == |page|
      && (forall i :: 0 <= i < |page| ==> r.todos[i].id >= 0 && r.todos[i].createdAt >= 0 && ToContract(r.todos[i]) == page[i])
      && r.totalTodos == total && r.error == None && !r.initialLoading
      && FetchRequest(r) == FetchRequest(st)
  {
  }

  /**
   * The last successful read wins: whatever optimistic additions or flips
   * happened before the fetch settled, the list afterwards is the same.
   */
  lemma FetchSupersedesOptimistic(st: State, tempId: int, now: int, id: int, outcome: FetchOutcome)
    requires FetchRequest(st).Some? && outcome.Listed?
    ensures ApplyFetch(AddTodo(st, tempId, now), outcome).todos == ApplyFetch(st, outcome).todos
    ensures ApplyFetch(CompleteTodo(st, id), outcome).todos == ApplyFetch(st, outcome).todos
  {
  }

  /** A failed fetch keeps the list and reports; the count, if it was read, is kept. */
  lemma FetchFailureKeepsTodos(st: State, outcome: FetchOutcome)
    requires FetchRequest(st).Some? && !outcome.Listed?
    ensures var r := ApplyFetch(st, outcome);
      && r.todos == st.todos
      && r.error == Some(FetchFailed)
      && r.totalTodos == (if outcome.ListFailed? then outcome.total else st.totalTodos)
  {
  }

  // ---------------------------------------------------------------------------
  // Completing a todo

  /**
   * A completion that fails right away gives back the list exactly when every
   * todo with that id was pending; one that is confirmed leaves them all
   * completed and the other todos as they were. Without a contract the
   * completion always fails.
   */
  lemma CompleteSettledSpec(st: State, id: int, confirmed: bool)
    ensures CompleteTodoSettled(st, id, false).todos == st.todos <==> AllWithId(st.todos, id, false)
    ensures CompleteTodoSettled(st, id, false).error == Some(CompleteFailed)
    ensures !st.contractBound ==> CompleteTodoSettled(st, id, confirmed) == CompleteTodoSettled(st, id, false)
    ensures confirmed && st.contractBound ==>
      var r := CompleteTodoSettled(st, id, confirmed).todos;
      && |r| == |st.todos|
      && AllWithId(r, id, true)
      && forall i :: 0 <= i < |r| && st.todos[i].id != id ==> r[i] == st.todos[i]
  {
    RevertRestoresIff(st.todos, id);
  }

  // ---------------------------------------------------------------------------
  // Page size

  /**
   * Show More is offered exactly when the todo page shows the button, and
   * exactly when pressing it changes something; it then asks the next fetch
   * for ten more todos, still from offset 0, and changes nothing else.
   */
  lemma ShowMoreSpec(st: State)
    ensures ShowMoreOffered(st) <==> ScreenOf(st) == TodoPage(true)
    ensures ShowMore(st) != st <==> ShowMoreOffered(st)
    ensures ShowMoreOffered(st) ==>
      && ShowMore(st).(displayedTodos := st.displayedTodos) == st
      && ShowMore(st).displayedTodos == st.displayedTodos + 10
      && (FetchRequest(st).Some? ==>
          FetchRequest(ShowMore(st)) == Some(FetchRequest(st).value.(limit := FetchRequest(st).value.limit + 10)))
  {
  }

  /**
   * Show More pressed repeatedly stops being offered: after enough presses the
   * page size reaches the count.
   */
  lemma {:induction false} ShowMoreEventuallyStops(st: State)
    ensures !ShowMoreOffered(ShowMoreTimes(st, (st.totalTodos - st.displayedTodos + 9) / 10))
    decreases st.totalTodos - st.displayedTodos
  {
    if ShowMoreOffered(st) {
      var next := ShowMore(st);
      assert (st.totalTodos - st.displayedTodos + 9) / 10 == 1 + (next.totalTodos - next.displayedTodos + 9) / 10;
      ShowMoreEventuallyStops(next);
    }
  }

  /** Pressing Show More `n` times, as long as it is offered. */
  function ShowMoreTimes(st: State, n: int): State
    decreases n
  {
    if n <= 0 || !ShowMoreOffered(st) then st else ShowMoreTimes(ShowMore(st), n - 1)
  }

  // ---------------------------------------------------------------------------
  // Wallet notifications

  /** After an account change the next fetch reads the first ten todos of the new account. */
  lemma AccountsChangedFetch(st: State, accounts: seq<Address>)
    requires st.listening
    ensures var r := AccountsChanged(st, accounts);
      && r.displayedTodos == 10
      && FetchRequest(r) == (if st.contractBound && |accounts| > 0 && accounts[0] != ""
                             then Some(PageRequest(accounts[0], 0, 10)) else None)
  {
  }

  /** Only the latest account notification counts: a second one overrides the first entirely. */
  lemma AccountsChangedLatestWins(st: State, first: seq<Address>, second: seq<Address>)
    ensures AccountsChanged(AccountsChanged(st, first), second) == AccountsChanged(st, second)
  {
  }

  /**
   * Right after the wallet reports no account, no read starts and the screen
   * is Loading, with no Show More button to press.
   */
  lemma AccountsRevokedShowsLoading(st: State)
    requires st.listening
    ensures var r := AccountsChanged(st, []);
      FetchRequest(r).None? && ScreenOf(r) == Loading && ScreenOf(ShowMore(r)) == Loading
  {
  }

  /**
   * A read settles on whatever state the component is in by then: a read
   * started on Base that settles after the wallet moved to another chain
   * still replaces the list and clears the network error, so the todo page
   * shows although no contract is bound.
   */
  lemma StaleFetchClearsNetworkError(st: State, chainIdHex: string, w: Wallet, total: nat, page: seq<ContractTodo>)
    requires FetchRequest(st).Some? && st.listening
    requires ParseIntHex(chainIdHex) != Some(BaseChainId)
    ensures var r := SettleFetch(ChainChanged(st, chainIdHex, w), Listed(total, page));
      && r.error == None && !r.contractBound
      && |r.todos| == |page|
      && (forall i :: 0 <= i < |page| ==> r.todos[i].id >= 0 && r.todos[i].createdAt >= 0 && ToContract(r.todos[i]) == page[i])
      && r.totalTodos == total
      && ScreenOf(r).TodoPage?
      && FetchRequest(r).None?
  {
  }

  /**
   * The refetch after a confirmed add is the read of the render in which the
   * add was submitted: it asks for that render's page size and writes on
   * whatever state the component is in when it settles. With Show More
   * pressed and its read settled in between, the list goes back to the old
   * page size while the larger page size stays.
   */
  lemma RefetchAfterAddUsesSubmittedPageSize(st: State, tempId: int, now: int,
                                             shownTotal: nat, shownPage: seq<ContractTodo>,
                                             total: nat, page: seq<ContractTodo>)
    requires AddAccepted(st) && FetchRequest(st).Some?
    requires ShowMoreOffered(AddTodo(st, tempId, now))
    ensures var submitted := AddTodo(st, tempId, now);
      var shown := ApplyFetch(ShowMore(submitted), Listed(shownTotal, shownPage));
      var r := SettleFetch(shown, Listed(total, page));
      && FetchRequest(submitted) == Some(PageRequest(st.wallet.value, 0, st.displayedTodos))
      && FetchRequest(shown) == Some(PageRequest(st.wallet.value, 0, st.displayedTodos + PageStep))
      && r.displayedTodos == st.displayedTodos + PageStep
      && |r.todos| == |page|
      && (|page| <= st.displayedTodos ==> |r.todos| < r.displayedTodos)
  {
    var submitted := AddTodo(st, tempId, now);
    SubmittedRequest(st, tempId, now);
    var shown := ApplyFetch(ShowMore(submitted), Listed(shownTotal, shownPage));
    ShownRequest(submitted, Listed(shownTotal, shownPage));
    assert FetchRequest(shown) == Some(PageRequest(submitted.wallet.value, 0, submitted.displayedTodos + PageStep));
    assert submitted.wallet.value == st.wallet.value;
    assert PageRequest(submitted.wallet.value, 0, submitted.displayedTodos + PageStep)
        == PageRequest(st.wallet.value, 0, st.displayedTodos + PageStep);
    var r := SettleFetch(shown, Listed(total, page));
    assert r.displayedTodos == shown.displayedTodos;
  }

  /** The add changes only the list and the input, so its render reads what the state before it would. */
  lemma SubmittedRequest(st: State, tempId: int, now: int)
    requires FetchRequest(st).Some?
    ensures AddTodo(st, tempId, now).wallet == st.wallet
    ensures AddTodo(st, tempId, now).displayedTodos == st.displayedTodos
    ensures FetchRequest(AddTodo(st, tempId, now)) == Some(PageRequest(st.wallet.value, 0, st.displayedTodos))
  {
    var submitted := AddTodo(st, tempId, now);
    assert submitted.contractBound == st.contractBound && submitted.wallet == st.wallet;
    assert submitted.displayedTodos == st.displayedTodos;
  }

  /** Show More pressed where it is offered, and its read settled: the next read asks for ten more. */
  lemma ShownRequest(s: State, outcome: FetchOutcome)
    requires ShowMoreOffered(s) && FetchRequest(s).Some?
    ensures var shown := ApplyFetch(ShowMore(s), outcome);
      && shown.displayedTodos == s.displayedTodos + PageStep
      && FetchRequest(shown) == Some(PageRequest(s.wallet.value, 0, s.displayedTodos + PageStep))
  {
    var pressed := ShowMore(s);
    assert pressed == s.(displayedTodos := s.displayedTodos + PageStep);
    assert FetchRequest(pressed).Some?;
    var shown := SettleFetch(pressed, outcome);
    assert ApplyFetch(pressed, outcome) == shown;
    assert shown.contractBound && shown.wallet == s.wallet;
  }

  /** A chain id other than Base's drops the contract, so no fetch runs, and reports. */
  lemma ChainChangedAway(st: State, chainIdHex: string, w: Wallet)
    requires st.listening && ParseIntHex(chainIdHex) != Some(BaseChainId)
    ensures var r := ChainChanged(st, chainIdHex, w);
      && !r.contractBound && FetchRequest(r).None? && r.error == Some(WrongNetwork)
      && AddTodo(r, 0, 0) == r
  {
  }

  /** Initialisation binds the contract exactly when the wallet is on Base and grants access. */
  lemma InitializeBinds(st: State, w: Wallet)
    requires !st.contractBound
    ensures Initialize(st, w).contractBound <==> w.OnChain? && w.chainId == BaseChainId && w.reply.Granted?
    ensures !Initialize(st, w).contractBound ==> Initialize(st, w).error.Some? && !Initialize(st, w).initialLoading
  {
  }

  /**
   * The wallet reports chain ids in hexadecimal: `0x2105` is Base and keeps
   * the component connected, while the decimal spelling `8453` is read as
   * 0x8453 and treated as another chain.
   */
  lemma ChainIdSpelling(st: State, a: Address)
    requires a != "" && st.listening
    ensures var w := OnChain(BaseChainId, Granted([a]));
      && FetchRequest(ChainChanged(st, "0x2105", w)) == Some(PageRequest(a, 0, st.displayedTodos))
      && !ChainChanged(st, "8453", w).contractBound
  {
    BaseChainIdSpellings();
  }

  /** From mount, a granted account leads to a first fetch of the first ten entries of that account. */
  lemma MountedFirstFetch(a: Address)
    requires a != ""
    ensures FetchRequest(Initialize(Mounted, OnChain(BaseChainId, Granted([a])))) == Some(PageRequest(a, 0, 10))
  {
  }

  /**
   * Wallet notifications reach the component only once an initialisation
   * has succeeded: before that, neither changes anything.
   */
  lemma NotificationsNeedListeners(st: State, accounts: seq<Address>, chainIdHex: string, w: Wallet)
    requires !st.listening
    ensures AccountsChanged(st, accounts) == st && ChainChanged(st, chainIdHex, w) == st
    ensures Initialize(st, w).listening <==> OnBase(w)
  {
  }

  /**
   * A page opened on another chain stays on the network error: the failed
   * initialisation registered no handler, so switching the wallet to Base
   * afterwards binds nothing and reads nothing.
   */
  lemma WrongChainAtMountStaysOnError(a: Address, chainIdHex: string, w: Wallet)
    requires a != ""
    ensures var st := Initialize(Mounted, OnChain(1, Granted([a])));
      && ScreenOf(st) == ErrorPage(WrongNetwork)
      && ChainChanged(st, chainIdHex, w) == st
      && ScreenOf(ChainChanged(st, chainIdHex, w)) == ErrorPage(WrongNetwork)
      && FetchRequest(ChainChanged(st, chainIdHex, w)).None?
  {
  }

  /**
   * Once a successful initialisation has registered the handlers, a switch
   * away from Base and back binds the contract again.
   */
  lemma ChainSwitchBackRebinds(a: Address, away: string, w: Wallet)
    requires a != "" && ParseIntHex(away) != Some(BaseChainId) && OnBase(w)
    ensures var st := Initialize(Mounted, OnChain(BaseChainId, Granted([a])));
      var back := ChainChanged(ChainChanged(st, away, w), "0x2105", w);
      && st.listening && back.contractBound && back.error == None && ScreenOf(back) == Loading
  {
    BaseChainIdSpellings();
  }
}

=== FILE: todos.dfy ===
/**
 * The todo record and the pure list transitions the TodoList component
 * applies to its `todos` state: the optimistic append, its rollback, the
 * optimistic completion, its revert, and the by-date sort of the view.
 */
module Todos {
  import opened Sorting

  type Address = string

  /** A todo as the component holds it; `createdAt` is a time in milliseconds since the epoch. */
  datatype Todo = Todo(id: int, content: string, tags: seq<string>, isCompleted: bool, createdAt: int)

  /** A todo as the contract's `getUserTodos` returns it; `createdAt` is in seconds. */
  datatype ContractTodo = ContractTodo(id: nat, content: string, tags: seq<string>, isCompleted: bool, createdAt: nat)

  /** The arguments of a `getUserTodos(owner, offset, limit)` call. */
  datatype PageRequest = PageRequest(owner: Address, offset: nat, limit: nat)

  /** The record conversion of a fetch: fields copied, seconds turned into milliseconds. */
  function FromContract(c: ContractTodo): Todo {
    Todo(c.id, c.content, c.tags, c.isCompleted, c.createdAt * 1000)
  }

  /** The inverse conversion, back to the contract's record. */
  function ToContract(t: Todo): ContractTodo
    requires t.id >= 0 && t.createdAt >= 0
  {
    ContractTodo(t.id, t.content, t.tags, t.isCompleted, t.createdAt / 1000)
  }

  /** The conversion loses nothing: converting back gives the contract's record. */
  lemma FromContractRoundTrip(c: ContractTodo)
    ensures ToContract(FromContract(c)) == c
  {
  }

  /** `todosList.map(...)` of a fetch. */
  function FromContractPage(page: seq<ContractTodo>): (r: seq<Todo>)
    ensures |r| == |page|
    ensures forall i :: 0 <= i < |page| ==>
      r[i].id >= 0 && r[i].createdAt >= 0 && ToContract(r[i]) == page[i]
  {
    if |page| == 0 then []
    else
      FromContractRoundTrip(page[0]);
      [FromContract(page[0])] + FromContractPage(page[1..])
  }

  function IdsOf(todos: seq<Todo>): set<int> {
    set t | t in todos :: t.id
  }

  /** `todos.filter(todo => todo.id !== id)`. */
  function WithoutId(todos: seq<Todo>, id: int): (r: seq<Todo>)
    ensures |r| <= |todos|
    ensures forall k :: 0 <= k < |r| ==> r[k].id != id
  {
    if |todos| == 0 then []
    else if todos[0].id == id then WithoutId(todos[1..], id)
    else [todos[0]] + WithoutId(todos[1..], id)
  }

  /** The rollback removes every todo carrying `id` and keeps every other one, as often as it occurs. */
  lemma {:induction false} WithoutIdCounts(todos: seq<Todo>, id: int)
    ensures forall t :: multiset(WithoutId(todos, id))[t] == if t.id == id then 0 else multiset(todos)[t]
  {
    if |todos| > 0 {
      WithoutIdCounts(todos[1..], id);
      assert todos == [todos[0]] + todos[1..];
    }
  }

  lemma {:induction false} WithoutIdAppend(a: seq<Todo>, b: seq<Todo>, id: int)
    ensures WithoutId(a + b, id) == WithoutId(a, id) + WithoutId(b, id)
  {
    if |a| > 0 {
      assert (a + b)[0] == a[0];
      assert (a + b)[1..] == a[1..] + b;
      WithoutIdAppend(a[1..], b, id);
      var head := if a[0].id == id then [] else [a[0]];
      assert WithoutId(a + b, id) == head + WithoutId(a[1..] + b, id);
      assert WithoutId(a, id) == head + WithoutId(a[1..], id);
      assert head + (WithoutId(a[1..], id) + WithoutId(b, id)) == (head + WithoutId(a[1..], id)) + WithoutId(b, id);
    } else {
      assert a + b == b;
    }
  }

  /** Filtering out an id that no todo carries changes nothing. */
  lemma {:induction false} WithoutAbsentId(todos: seq<Todo>, id: int)
    requires id !in IdsOf(todos)
    ensures WithoutId(todos, id) == todos
  {
    if |todos| > 0 {
      assert IdsOf(todos[1..]) <= IdsOf(todos);
      WithoutAbsentId(todos[1..], id);
    }
  }

  /** `todos.map(todo => todo.id === id ? { ...todo, isCompleted: done } : todo)`. */
  function SetCompleted(todos: seq<Todo>, id: int, done: bool): (r: seq<Todo>)
    ensures |r| == |todos|
    ensures AllWithId(r, id, done)
    ensures forall i :: 0 <= i < |r| ==> r[i].(isCompleted := todos[i].isCompleted) == todos[i]
    ensures forall i :: 0 <= i < |r| && todos[i].id != id ==> r[i] == todos[i]
  {
    seq(|todos|, i requires 0 <= i < |todos| =>
      if todos[i].id == id then todos[i].(isCompleted := done) else todos[i])
  }

  /** Every todo carrying `id` has completion flag `done`. */
  predicate AllWithId(todos: seq<Todo>, id: int, done: bool) {
    forall i :: 0 <= i < |todos| && todos[i].id == id ==> todos[i].isCompleted == done
  }

  /**
   * The revert undoes the optimistic completion exactly when every todo with
   * that id was pending before: it sets the flag back to `false`, not to the
   * value it had.
   */
  lemma RevertRestoresIff(todos: seq<Todo>, id: int)
    ensures SetCompleted(SetCompleted(todos, id, true), id, false) == todos
      <==> AllWithId(todos, id, false)
  {
    var r := SetCompleted(SetCompleted(todos, id, true), id, false);
    if r == todos {
      forall i | 0 <= i < |todos| && todos[i].id == id ensures !todos[i].isCompleted {
        assert r[i] == todos[i];
      }
    }
    if AllWithId(todos, id, false) {
      assert forall i :: 0 <= i < |todos| ==> r[i] == todos[i];
    }
  }

  /** Completion (and its revert) is idempotent: a second flip with the same flag changes nothing. */
  lemma SetCompletedIdempotent(todos: seq<Todo>, id: int, done: bool)
    ensures SetCompleted(SetCompleted(todos, id, done), id, done) == SetCompleted(todos, id, done)
  {
  }

  /** The comparator `(a, b) => a.createdAt - b.createdAt`. */
  function ByCreatedAt(a: Todo, b: Todo): int {
    a.createdAt - b.createdAt
  }

  lemma ByCreatedAtConsistent()
    ensures Consistent(ByCreatedAt)
  {
  }

  /** `sortTodosByDate`: the same todos, oldest first. */
  function SortTodosByDate(todos: seq<Todo>): (r: seq<Todo>)
    ensures multiset(r) == multiset(todos)
    ensures forall i, j :: 0 <= i < j < |r| ==> r[i].createdAt <= r[j].createdAt
  {
    ByCreatedAtConsistent();
    SortSorted(todos, ByCreatedAt);
    var r := Sort(todos, ByCreatedAt);
    assert forall i, j :: 0 <= i < j < |r| ==> ByCreatedAt(r[i], r[j]) <= 0;
    r
  }
}

=== FILE: user_tasks.dfy ===
/**
 * The UserTasks component: it completes an ENS name with `.eth`, resolves
 * it, and shows the first ten todos of the resolved address read-only.
 * The resolver and the contract are inputs.
 */
module UserTasks {
  import opened Wrappers
  import opened Text
  import opened Todos

  const EthSuffix: string := ".eth"

  /** The fixed page `fetchTasks` asks for. */
  const TasksPageSize: nat := 10

  const NameNotFound: string := "ENS name not found"
  const ResolveFailed: string := "Error resolving ENS name"
  const TasksFailed: string := "Failed to fetch tasks."

  /** The name the component resolves: `name` itself if it already ends in `.eth`, else `name` with `.eth`. */
  function NormalizeEnsName(name: string): (r: string)
    ensures EndsWith(r, EthSuffix)
  {
    if EndsWith(name, EthSuffix) then name
    else
      assert (name + EthSuffix)[|name|..] == EthSuffix;
      name + EthSuffix
  }

  /**
   * Normalising only ever appends the suffix, and only when it is missing:
   * the name is a prefix of the result, and the result is the name exactly
   * when the name already ends in `.eth`.
   */
  lemma NormalizeExtends(name: string)
    ensures var r := NormalizeEnsName(name);
      && |name| <= |r| <= |name| + |EthSuffix|
      && r[..|name|] == name
      && (r == name <==> EndsWith(name, EthSuffix))
      && (r != name ==> r[|name|..] == EthSuffix)
  {
    var r := NormalizeEnsName(name);
    if !EndsWith(name, EthSuffix) {
      assert r[..|name|] == name;
      assert r[|name|..] == EthSuffix;
    }
  }

  /** Normalising twice is normalising once. */
  lemma NormalizeIdempotent(name: string)
    ensures NormalizeEnsName(NormalizeEnsName(name)) == NormalizeEnsName(name)
  {
  }

  /** The route `/[username]` passes `${username}.eth`. */
  function RouteEnsName(username: string): string {
    username + EthSuffix
  }

  /**
   * The route always supplies a suffixed name, so the component never adds a
   * second one; a username that already ends in `.eth` therefore reaches the
   * resolver with the suffix twice.
   */
  lemma RouteNameUnchanged(username: string)
    ensures NormalizeEnsName(RouteEnsName(username)) == RouteEnsName(username)
    ensures NormalizeEnsName(RouteEnsName("vitalik.eth")) == "vitalik.eth.eth"
  {
    assert RouteEnsName(username)[|username|..] == EthSuffix;
    assert RouteEnsName("vitalik.eth")[11..] == EthSuffix;
  }

  /** What `getEnsAddress` gave: an address or `null`, or it threw. */
  datatype Resolution = Answered(address: Option<Address>) | LookupThrew

  datatype PageState = PageState(tasks: seq<Todo>, address: Option<Address>, error: Option<string>)

  const Mounted: PageState := PageState([], None, None)

  /** A state change together with the `getUserTodos` call it starts, if any. */
  datatype Step = Step(state: PageState, request: Option<PageRequest>)

  /**
   * `resolveENSName`, given what the resolver answers for the normalised
   * name. A read starts exactly when an address came back, for that address
   * and the first ten entries; otherwise an error is reported. The tasks
   * are never touched here.
   */
  function ResolveEnsName(st: PageState, name: string, resolver: string -> Resolution): (step: Step)
    ensures step.state.tasks == st.tasks
    ensures step.request.Some? <==> resolver(NormalizeEnsName(name)).Answered? && resolver(NormalizeEnsName(name)).address.Some?
    ensures step.request.Some? ==> step.state.address == resolver(NormalizeEnsName(name)).address
    ensures step.request.Some? ==>
      step.state.address.Some? && step.request.value == PageRequest(step.state.address.value, 0, TasksPageSize)
      && step.state.error == st.error
    ensures step.request.None? ==> step.state.address == st.address && step.state.error.Some?
    ensures resolver(NormalizeEnsName(name)) == Answered(None) ==> step.state.error == Some(NameNotFound)
    ensures resolver(NormalizeEnsName(name)).LookupThrew? ==> step.state.error == Some(ResolveFailed)
  {
    match resolver(NormalizeEnsName(name))
    case Answered(Some(a)) => Step(st.(address := Some(a)), Some(PageRequest(a, 0, TasksPageSize)))
    case Answered(None) => Step(st.(error := Some(NameNotFound)), None)
    case LookupThrew => Step(st.(error := Some(ResolveFailed)), None)
  }

  /**
   * `fetchTasks` settling: a page replaces the tasks, one record per entry,
   * each converting back to its entry, exactly as the todo list converts a
   * page; a failed read keeps them and reports. The address is never touched.
   */
  function FetchTasks(st: PageState, reply: Option<seq<ContractTodo>>): (r: PageState)
    ensures r.address == st.address
    ensures reply.Some? ==> |r.tasks| == |reply.value| && r.error == st.error
    ensures reply.Some? ==> forall i :: 0 <= i < |r.tasks| ==>
      r.tasks[i].id >= 0 && r.tasks[i].createdAt >= 0 && ToContract(r.tasks[i]) == reply.value[i]
    ensures reply.Some? ==> r.tasks == FromContractPage(reply.value)
    ensures reply.None? ==> r.tasks == st.tasks && r.error == Some(TasksFailed)
  {
    match reply
    case Some(page) =>
      FormatTasksAgrees(page);
      st.(tasks := FormatTasks(page))
    case None => st.(error := Some(TasksFailed))
  }

  /** `todos.map(...)` of `fetchTasks`: the same fields, one record per entry, in order. */
  function FormatTasks(page: seq<ContractTodo>): (r: seq<Todo>)
    ensures |r| == |page|
    ensures forall i :: 0 <= i < |page| ==>
      r[i].id >= 0 && r[i].createdAt >= 0 && ToContract(r[i]) == page[i]
  {
    if |page| == 0 then []
    else
      var t := Todo(page[0].id, page[0].content, page[0].tags, page[0].isCompleted, page[0].createdAt * 1000);
      [t] + FormatTasks(page[1..])
  }

  /** Both components turn a contract page into the same records. */
  lemma {:induction false} FormatTasksAgrees(page: seq<ContractTodo>)
    ensures FormatTasks(page) == FromContractPage(page)
  {
    if |page| > 0 {
      FormatTasksAgrees(page[1..]);
    }
  }

  /**
   * Resolution consults the resolver only at the normalised name. Without an
   * address it reports and fetches nothing; with one it fetches the first ten
   * tasks of that address.
   */
  lemma ResolveSpec(st: PageState, name: string, resolver: string -> Resolution, other: string -> Resolution)
    requires other(NormalizeEnsName(name)) == resolver(NormalizeEnsName(name))
    ensures ResolveEnsName(st, name, other) == ResolveEnsName(st, name, resolver)
    ensures var step := ResolveEnsName(st, name, resolver);
      && (resolver(NormalizeEnsName(name)) == Answered(None) ==>
            step.request.None? && step.state.error == Some(NameNotFound) && step.state.address == st.address)
      && (step.request.Some? <==> resolver(NormalizeEnsName(name)).Answered? && resolver(NormalizeEnsName(name)).address.Some?)
      && (step.request.Some? ==>
            step.request.value == PageRequest(step.state.address.value, 0, 10) && step.state.error == st.error)
  {
  }

  /** Which screen the component renders. */
  datatype Screen = ErrorText(message: string) | Loading | TaskList(tasks: seq<Todo>)

  function ScreenOf(st: PageState): (s: Screen)
    ensures s.ErrorText? <==> st.error.Some?
    ensures s.ErrorText? ==> st.error == Some(s.message)
    ensures s == Loading <==> st.error.None? && st.address.None?
    ensures s.TaskList? ==> s.tasks == st.tasks
  {
    if st.error.Some? then ErrorText(st.error.value)
    else if st.address.None? then Loading
    else TaskList(st.tasks)
  }

  /**
   * From mount, a name the resolver does not know ends on the error text; a
   * known name followed by a successful read shows exactly that page.
   */
  lemma MountedOutcomes(name: string, resolver: string -> Resolution, page: seq<ContractTodo>)
    ensures resolver(NormalizeEnsName(name)) == Answered(None) ==>
      ScreenOf(ResolveEnsName(Mounted, name, resolver).state) == ErrorText(NameNotFound)
    ensures resolver(NormalizeEnsName(name)).Answered? && resolver(NormalizeEnsName(name)).address.Some? ==>
      ScreenOf(FetchTasks(ResolveEnsName(Mounted, name, resolver).state, Some(page))) == TaskList(FromContractPage(page))
  {
    FormatTasksAgrees(page);
  }
}

=== FILE: view.dfy ===
/**
 * The order in which the TodoList render shows the grouped todos: the
 * pending section before the completed one, each section's tags through
 * `sortTags`, and each tag's todos through `sortTodosByDate`.
 */
module TodoView {
  import opened Sorting
  import opened Todos
  import opened Grouping

  /**
   * The comparator of `sortTags`. `localeCompare` stands for
   * `a.localeCompare(b, undefined, { numeric: true, sensitivity: "base" })`.
   */
  function CompareTags(localeCompare: (string, string) -> int, a: string, b: string): int {
    if a == Untagged then -1
    else if b == Untagged then 1
    else localeCompare(a, b)
  }

  function TagOrder(localeCompare: (string, string) -> int): (string, string) -> int {
    (a, b) => CompareTags(localeCompare, a, b)
  }

  /** `sortTags`: the same tags, the sentinel first. */
  function SortTags(tags: seq<string>, localeCompare: (string, string) -> int): (r: seq<string>)
    ensures |r| == |tags| && multiset(r) == multiset(tags)
    ensures Untagged in tags ==> |r| > 0 && r[0] == Untagged
  {
    UntaggedFirst(tags, localeCompare);
    Sort(tags, TagOrder(localeCompare))
  }

  lemma {:induction false} UntaggedFirst(tags: seq<string>, localeCompare: (string, string) -> int)
    ensures Untagged in tags ==> Sort(tags, TagOrder(localeCompare))[0] == Untagged
  {
    var order := TagOrder(localeCompare);
    if |tags| > 0 {
      var rest := Sort(tags[1..], order);
      UntaggedFirst(tags[1..], localeCompare);
      if tags[0] != Untagged && Untagged in tags {
        assert Untagged in tags[1..];
        assert Untagged in multiset(rest);
        assert order(tags[0], rest[0]) == 1;
      }
    }
  }

  /** With a consistent `localeCompare` the comparator of `sortTags` is consistent as well. */
  lemma TagOrderConsistent(localeCompare: (string, string) -> int)
    requires Consistent(localeCompare)
    ensures Consistent(TagOrder(localeCompare))
  {
    var order := TagOrder(localeCompare);
    forall a, b, c | order(a, b) <= 0 && order(b, c) <= 0 ensures order(a, c) <= 0 {
      if a != Untagged {
        assert b != Untagged && c != Untagged;
        assert localeCompare(a, b) <= 0 && localeCompare(b, c) <= 0;
      }
    }
  }

  /** The tags other than the sentinel come out in `localeCompare` order. */
  lemma SortTagsOrdered(tags: seq<string>, localeCompare: (string, string) -> int)
    requires Consistent(localeCompare)
    ensures var r := SortTags(tags, localeCompare);
      forall i, j :: 0 <= i < j < |r| && r[i] != Untagged && r[j] != Untagged ==>
        localeCompare(r[i], r[j]) <= 0
  {
    TagOrderConsistent(localeCompare);
    SortSorted(tags, TagOrder(localeCompare));
    var r := SortTags(tags, localeCompare);
    forall i, j | 0 <= i < j < |r| && r[i] != Untagged && r[j] != Untagged
      ensures localeCompare(r[i], r[j]) <= 0
    {
      assert TagOrder(localeCompare)(r[i], r[j]) <= 0;
    }
  }

  datatype TagSection = TagSection(tag: string, todos: seq<Todo>)
  datatype StatusSection = StatusSection(status: Status, sections: seq<TagSection>)

  /**
   * One status's part of the page: a section per key of the group, in the
   * order `sortTags` gives the keys (the sentinel first), each showing the
   * todos of its bucket oldest first.
   */
  function SectionFor(g: seq<StatusGroup>, status: Status, localeCompare: (string, string) -> int): (sec: seq<TagSection>)
    ensures |sec| == |BucketsOf(g, status)|
    ensures SectionTags(sec) == SortTags(TagsIn(BucketsOf(g, status)), localeCompare)
    ensures multiset(SectionTags(sec)) == multiset(TagsIn(BucketsOf(g, status)))
    ensures Untagged in TagsIn(BucketsOf(g, status)) ==> sec[0].tag == Untagged
    ensures forall m :: 0 <= m < |sec| ==>
      multiset(sec[m].todos) == multiset(BucketOf(BucketsOf(g, status), sec[m].tag))
    ensures forall m, i, j :: 0 <= m < |sec| && 0 <= i < j < |sec[m].todos| ==>
      sec[m].todos[i].createdAt <= sec[m].todos[j].createdAt
  {
    var bs := BucketsOf(g, status);
    var tags := SortTags(TagsIn(bs), localeCompare);
    var sec := seq(|tags|, i requires 0 <= i < |tags| => TagSection(tags[i], SortTodosByDate(BucketOf(bs, tags[i]))));
    assert SectionTags(sec) == tags;
    sec
  }

  /**
   * The rendered structure: a section per status that has a todo, pending
   * first; no status section is empty.
   */
  function Render(todos: seq<Todo>, localeCompare: (string, string) -> int): (r: seq<StatusSection>)
    ensures |r| <= 2
    ensures |r| == 2 ==> r[0].status == Pending && r[1].status == Completed
    ensures forall k :: 0 <= k < |r| ==> |r[k].sections| > 0
  {
    var g := GroupTodos(todos);
    StatusPart(g, Pending, localeCompare) + StatusPart(g, Completed, localeCompare)
  }

  /** `groupedTodos[status] && Object.keys(groupedTodos[status]).length > 0 && (...)`: one status's block, if any. */
  function StatusPart(g: seq<StatusGroup>, status: Status, localeCompare: (string, string) -> int): (r: seq<StatusSection>)
    ensures |r| == if |BucketsOf(g, status)| > 0 then 1 else 0
    ensures forall k :: 0 <= k < |r| ==> r[k].status == status && |r[k].sections| > 0
  {
    if |BucketsOf(g, status)| > 0 then [StatusSection(status, SectionFor(g, status, localeCompare))] else []
  }

  function SectionTags(sections: seq<TagSection>): (tags: seq<string>)
    ensures |tags| == |sections| && forall i :: 0 <= i < |tags| ==> tags[i] == sections[i].tag
  {
    seq(|sections|, i requires 0 <= i < |sections| => sections[i].tag)
  }

  /** A tag section shows exactly the todos filed there, oldest first. */
  predicate ShowsBucket(todos: seq<Todo>, status: Status, ts: TagSection) {
    && multiset(ts.todos) == multiset(Expected(todos, status, ts.tag))
    && forall i, j :: 0 <= i < j < |ts.todos| ==> ts.todos[i].createdAt <= ts.todos[j].createdAt
  }

  /**
   * A status's section lists each tag some todo of that status is filed
   * under, once, the sentinel first; under each tag it shows exactly that
   * tag's todos, oldest first.
   */
  lemma SectionSpec(todos: seq<Todo>, status: Status, localeCompare: (string, string) -> int)
    ensures var sec := SectionFor(GroupTodos(todos), status, localeCompare);
      && Distinct(SectionTags(sec))
      && (forall tag :: tag in SectionTags(sec) <==> FiledSomewhere(todos, status, tag))
      && (FiledSomewhere(todos, status, Untagged) ==> sec[0].tag == Untagged)
      && (forall m :: 0 <= m < |sec| ==> ShowsBucket(todos, status, sec[m]))
  {
    var g := GroupTodos(todos);
    var bs := BucketsOf(g, status);
    var sec := SectionFor(g, status, localeCompare);
    var keys := TagsIn(bs);
    var tags := SortTags(keys, localeCompare);
    GroupTodosSpec(todos);
    GroupTodosWellFormed(todos);
    BucketsOfWellFormed(g, status);
    assert SectionTags(sec) == tags;
    forall tag ensures tag in tags <==> tag in keys {
      assert tag in tags <==> tag in multiset(tags);
      assert tag in keys <==> tag in multiset(keys);
    }
    DistinctPermutation(keys, tags);
    forall m | 0 <= m < |sec| ensures ShowsBucket(todos, status, sec[m]) {
      GroupTodosLookup(todos, status, tags[m]);
    }
  }

  lemma DistinctPermutation<K>(a: seq<K>, b: seq<K>)
    requires Distinct(a) && multiset(a) == multiset(b)
    ensures Distinct(b)
  {
    forall x | x in multiset(a) ensures multiset(a)[x] == 1 {
      var i :| 0 <= i < |a| && a[i] == x;
      MultiplicityOne(a, i);
    }
    forall i, j | 0 <= i < j < |b| ensures b[i] != b[j] {
      TwoOccurrences(b, i, j);
    }
  }

  /** Two positions holding the same element make its multiplicity at least two. */
  lemma TwoOccurrences<K>(b: seq<K>, i: nat, j: nat)
    requires i < j < |b|
    ensures b[i] == b[j] ==> multiset(b)[b[i]] >= 2
  {
    assert b == b[..j] + [b[j]] + b[j + 1..];
    assert b[i] in b[..j];
    assert multiset(b) == multiset(b[..j]) + multiset{b[j]} + multiset(b[j + 1..]);
  }

  lemma {:induction false} MultiplicityOne<K>(a: seq<K>, i: nat)
    requires Distinct(a) && i < |a|
    ensures multiset(a)[a[i]] == 1
  {
    assert a == a[..i] + [a[i]] + a[i + 1..];
    assert a[i] !in a[..i] && a[i] !in a[i + 1..];
    assert multiset(a) == multiset(a[..i]) + multiset{a[i]} + multiset(a[i + 1..]);
  }

  function SectionStatuses(r: seq<StatusSection>): (statuses: seq<Status>)
    ensures |statuses| == |r| && forall k :: 0 <= k < |r| ==> statuses[k] == r[k].status
  {
    seq(|r|, k requires 0 <= k < |r| => r[k].status)
  }

  /**
   * The page shows a section exactly for each status some todo has, the
   * pending section before the completed one, and each is that status's
   * part of the grouping.
   */
  lemma RenderSpec(todos: seq<Todo>, localeCompare: (string, string) -> int)
    ensures var r := Render(todos, localeCompare);
      && (forall status :: status in SectionStatuses(r) <==> HasStatus(todos, status))
      && SectionStatuses(r) in [[], [Pending], [Completed], [Pending, Completed]]
      && (forall k :: 0 <= k < |r| ==> r[k].sections == SectionFor(GroupTodos(todos), r[k].status, localeCompare))
  {
    RenderStatuses(todos, localeCompare);
    RenderSections(todos, localeCompare);
  }

  lemma RenderStatuses(todos: seq<Todo>, localeCompare: (string, string) -> int)
    ensures var r := Render(todos, localeCompare);
      && (forall status :: status in SectionStatuses(r) <==> HasStatus(todos, status))
      && SectionStatuses(r) in [[], [Pending], [Completed], [Pending, Completed]]
  {
    RenderStatusList(todos, localeCompare);
    var expected := SectionStatuses(Render(todos, localeCompare));
    var p, c := HasStatus(todos, Pending), HasStatus(todos, Completed);
    if p && c {
      assert expected == [Pending, Completed];
    } else if p {
      assert expected == [Pending];
    } else if c {
      assert expected == [Completed];
    } else {
      assert expected == [];
    }
    forall status ensures status in expected <==> HasStatus(todos, status) {
      if status == Pending {} else {}
    }
  }

  /** One section per present status, pending first. */
  lemma RenderStatusList(todos: seq<Todo>, localeCompare: (string, string) -> int)
    ensures SectionStatuses(Render(todos, localeCompare))
      == (if HasStatus(todos, Pending) then [Pending] else []) + (if HasStatus(todos, Completed) then [Completed] else [])
  {
    var g := GroupTodos(todos);
    var p, c := StatusPart(g, Pending, localeCompare), StatusPart(g, Completed, localeCompare);
    assert Render(todos, localeCompare) == p + c;
    GroupHasStatus(todos, Pending);
    GroupHasStatus(todos, Completed);
  }

  lemma RenderSections(todos: seq<Todo>, localeCompare: (string, string) -> int)
    ensures var r := Render(todos, localeCompare);
      forall k :: 0 <= k < |r| ==> r[k].sections == SectionFor(GroupTodos(todos), r[k].status, localeCompare)
  {
    var g := GroupTodos(todos);
    var p, c := StatusPart(g, Pending, localeCompare), StatusPart(g, Completed, localeCompare);
    assert forall k :: 0 <= k < |p| ==> p[k] == StatusSection(Pending, SectionFor(g, Pending, localeCompare));
    assert forall k :: 0 <= k < |c| ==> c[k] == StatusSection(Completed, SectionFor(g, Completed, localeCompare));
    assert Render(todos, localeCompare) == p + c;
  }
}

=== FILE: wrappers.dfy ===
/** The optional value used throughout the model for JavaScript's `null` / `undefined`. */
module Wrappers {

  datatype Option<+T> = None | Some(value: T)
}
